=== FILE: README.md ===
# AgriScan authentication and wizard core in Dafny

This project models the logic of the AgriScan web application: a plant-health
scanner whose users sign up or sign in and then spend points on simulated
scans. The centre of the model is **authentication-callback resolution**,
which the application implements twice:

- The **client callback page** gathers parameters from the URL fragment and
  the query string, fragment first. It picks exactly one flow in a fixed
  order: authorization code (section 4.1 of RFC 6749), then access/refresh
  token pair (section 4.2.2 of RFC 6749), then one-time token hash plus type,
  then "no tokens found". It makes at most one session-service call. On
  success it scrubs the address bar down to the bare pathname and then
  navigates. On failure it stays put and shows a status line and an error.
  Its behaviour is a trace of events (`CallbackPage.Run`).
- The **server callback route** reads only the query. It tries the code
  exchange and then the token pair. It redirects to `origin + next` on
  success and to `/auth/error?message=<reason>` on a failure. When nothing
  matched it redirects to the site root (`CallbackRoute.Decide`, `CallbackRoute.Target`).
  The success redirect parses `origin + next` as a URL inside the branch's
  `try`, so a `next` that makes it unparseable ends on that branch's
  exception page (`CallbackRoute.Landing`); whether a text parses is an
  input `parses`.

The page and the route are separate implementations, each with its own
decision logic (`CallbackPage.Classify`, `CallbackRoute.Decide`). `CallbackVersions` states where they
agree (the same parameter values on a query-only link) and where they differ:
a one-time-token link, and an empty `next`.

Around that core the model covers:

- `URLSearchParams` semantics: first-match `get`, `set` and the WHATWG
  urlencoded parser, plus the page's own fragment parser (`SearchParams`).
  JavaScript string helpers (`\s`, `split`, `trim`, `toLowerCase`,
  `includes`) live in `Text`.
- The sign-up form's validators, error map and sign-up answer
  (`RegistrationForm`).
- The sign-in form's validators, profile mapping and callbacks into the
  wizard (`LoginForm`).
- The wizard state record of the home page: its callbacks and which
  components and header buttons render (`Wizard`).
- The scanning step: the upload size limit, the five-point scan gate, the
  result it prepends and the balance it reports (`Scanner`).
- The profile helpers: building a profile row, the 64-digit hexadecimal token
  generated from 32 random bytes, `.single()` lookups, and the scan and
  payment inserts keyed by the profile's own id (`ClerkAuth`, `Hex`).

The session service (Supabase auth), the profile table queries and the
identity provider are not modelled as code. Each call is a function parameter
from request to reply: a user, an error object, neither, or a thrown
exception (`Session.Reply`). Randomness, the clock, percent-decoding and
`Number.parseInt` are inputs too.

Behaviours of the code worth knowing:

- The page's fragment parser calls `decodeURIComponent`, which can throw. A
  malformed escape therefore ends on the "Unexpected error" screen; it does
  not degrade to a missing key.
- The page treats any reply without an error object as success, including one
  that carries no user. The route lets such a code exchange fall through to
  the token-pair branch and then to the root.
- The page's code flow replaces an empty `next` with `/dashboard`. The route
  keeps an empty `next` (`?? "/"`) and also honours `next` for the token pair.

## Model

| member | source | states |
|---|---|---|
| CallbackPage.FragmentParams | app/auth/callback/page.tsx:18-29 | with no fragment, a bare `#` or a hash not starting with `#` there are no pairs and no failure; otherwise the pairs are the fragment parse of the text after `#` |
| CallbackPage.QueryParams | app/auth/callback/page.tsx:19-33 | an empty search or a bare `?` gives no pairs; a search starting with `?` gives the urlencoded parse of the text after it |
| CallbackPage.CollectParams | app/auth/callback/page.tsx:21-37 | the merged map reads, for every name, the fragment's value when the fragment has that name and the query's otherwise; it fails exactly when fragment decoding throws, with that error |
| CallbackPage.TokenHash | app/auth/callback/page.tsx:80 | a non-empty `token_hash` is used; otherwise `token`; the result is usable exactly when one of the two is non-empty |
| CallbackPage.RawType | app/auth/callback/page.tsx:81 | empty exactly when `type` is missing or empty; otherwise `type` lower-cased character by character, so already lower-case |
| CallbackPage.ResolveOtpType | app/auth/callback/page.tsx:85-93 | the type passed on is always one of the six allowed types: the lowered input exactly when it is allowed, else `email` |
| CallbackPage.Classify | app/auth/callback/page.tsx:39-82 | exactly one flow per map in priority order: code iff a non-empty `code`; token pair iff no code and a non-empty `access_token`; one-time token iff neither and both a token hash and a type; the code flow carries `code` and `next` (`/dashboard` when `next` is missing or empty), the token pair carries `access_token` and the refresh token only when non-empty, the one-time-token flow carries the token hash and the resolved type |
| CallbackPage.CallFor | app/auth/callback/page.tsx:44-98 | every flow except the no-tokens fallback makes a call |
| CallbackPage.Settle | app/auth/callback/page.tsx:45-55 | after a reply the page navigates exactly when the reply has no error object and did not throw, and then only scrubs the URL to the pathname and navigates to the destination; an error object shows its message (or serialisation) under the flow's failure status; an exception shows its text under "Unexpected error" |
| CallbackPage.Attempt | app/auth/callback/page.tsx:43-55 | a calling flow shows its status first and then makes its one call; the reply alone decides: navigation last, right after scrubbing, exactly when the reply succeeded, otherwise an error followed by a status line |
| CallbackPage.Dispatch | app/auth/callback/page.tsx:39-114 | no match shows the fixed "no tokens" status and error and makes no call; a calling flow shows its own pending status, makes the flow's call, and then navigates to the flow's destination exactly when the reply succeeded, shows an error object under the flow's failure status, or an exception under "Unexpected error"; a navigation is last and directly preceded by scrubbing |
| CallbackPage.Conclude | app/auth/callback/page.tsx:14-118 | a decoding throw shows its text with "Unexpected error" and makes no call; otherwise at most one call, the classified flow's, and navigation exactly when that call succeeded |
| CallbackPage.Run | app/auth/callback/page.tsx:13-120 | the whole page: it navigates iff no error is shown, and exactly when a call was made and its reply succeeded; it navigates only as its last event and only after scrubbing to the bare pathname, and makes at most one service call, the one the merged parameters select |
| CallbackPage.CodeBeatsAccessToken | app/auth/callback/page.tsx:40-61 | with both `code` and `access_token`, the code exchange is the only call made |
| CallbackPage.NavigationTarget | app/auth/callback/page.tsx:41-109 | the code flow navigates to a non-empty `next` or `/dashboard`; the token-pair and one-time-token flows always navigate to `/dashboard` |
| CallbackPage.RefreshTokenOptional | app/auth/callback/page.tsx:58-65 | the token pair is installed with the refresh token only when it is non-empty, and without it otherwise |
| CallbackPage.OtpTypeNeverRejected | app/auth/callback/page.tsx:80-93 | a token hash with any non-empty type is verified with the lowered type if allowed, else `email` |
| CallbackPage.FailureScreens | app/auth/callback/page.tsx:45-118 | the exact failure screens: a decoding throw, the no-tokens texts, and a failed code exchange showing the error's text under "Failed to exchange code" |
| CallbackPage.ReplyDecidesEnding | app/auth/callback/page.tsx:39-118 | for every calling flow the reply decides the ending: a user or an empty answer exactly when the page scrubs to the pathname and navigates to a non-empty `next` or `/dashboard` (code) or to `/dashboard` (token pair, one-time token); an error object ends with its message, or its serialisation when the message is empty, under the flow's failure status; an exception ends with its text under "Unexpected error" |
| CallbackRoute.Target | app/auth/callback/route.ts:22-71 | every target's text starts with the origin text; the root fallback differs from every error page, and distinct failure reasons give distinct error pages; success goes to `origin + next` and the fallback to `origin + "/"` |
| CallbackRoute.ReasonCodesDiffer | app/auth/callback/route.ts:25-62 | the four reason codes stay distinct behind any common prefix |
| CallbackRoute.Next | app/auth/callback/route.ts:7 | a present `next` is used as given, even when empty; a missing one gives `/` |
| CallbackRoute.Landing | app/auth/callback/route.ts:27-33 | after a user reply, the branch succeeds to `next` exactly when `origin + next` parses, and otherwise ends on the branch's exception page, because the redirect throws inside the `try` |
| CallbackRoute.TokenPairStage | app/auth/callback/route.ts:40-71 | without an access token, no call and the root; with one, exactly one `setSession` call carrying the refresh token whenever present |
| CallbackRoute.Decide | app/auth/callback/route.ts:19-71 | the code exchange, when a code is present, is the first call; at most two calls, two only after a code exchange that answered neither; an error page only after a failed or throwing call, or after a user whose target does not parse; success only after a user, always to `next`, and only when `origin + next` parses; without a non-empty code it is exactly the token-pair stage |
| CallbackRoute.Handle | app/auth/callback/route.ts:4-72 | the redirect text starts with the origin text: `origin + next` on success, and then it parses, the reason's error page on a failure, the root when nothing matched; a query with no non-empty code or access token always lands on the root |
| CallbackRoute.CodeExchangeOutcomes | app/auth/callback/route.ts:22-34 | an exchange error goes to `exchange_failed`, an exception to `exchange_exception`, a user to `origin + next` when that parses and to `exchange_exception` when it does not, each after one call |
| CallbackRoute.CodeFallsThrough | app/auth/callback/route.ts:19-43 | an exchange answering neither error nor user continues exactly like a request without a code |
| CallbackRoute.TokenPairOutcomes | app/auth/callback/route.ts:46-71 | a session error goes to `set_session_failed`, an exception to `set_session_exception`, a user to `origin + next` when that parses and to `set_session_exception` when it does not, and neither to the root |
| CallbackRoute.NoMatchGoesToRoot | app/auth/callback/route.ts:67-71 | with no non-empty `code` or `access_token`, including a `token_hash`/`type`-only query, no call is made and the target is `origin + "/"` |
| CallbackRoute.EmptyNextKept | app/auth/callback/route.ts:7-29 | with `next` present but empty, success redirects to the bare origin |
| CallbackVersions.SameValues | app/auth/callback/page.tsx:31-37 | with no fragment, the page's merged map reads exactly like the route's parsed query |
| CallbackVersions.RouteReadsValues | app/auth/callback/route.ts:5-41 | the route's decision depends only on the parameter values it reads |
| CallbackVersions.PageVerifiesOtp | app/auth/callback/page.tsx:80-98 | on the page, a token hash and type without code or access token make the one-time-token verification the call |
| CallbackVersions.PageLandsByDefault | app/auth/callback/page.tsx:41-54 | on the page, a successful code exchange with an empty `next` lands on `/dashboard` |
| CallbackVersions.OtpLinkOnlyOnPage | app/auth/callback/page.tsx:79-111 | for the same query-only one-time-token link, the page calls the verification while the route makes no call and redirects to the root |
| CallbackVersions.EmptyNextDiverges | app/auth/callback/page.tsx:39-56 | for the same code link with an empty `next`, a successful exchange lands the page on `/dashboard` and the route on the bare origin |
| CallbackVersions.RouteLandsOnOrigin | app/auth/callback/route.ts:7-29 | a user after the code exchange, with `next` present but empty, sends the route to the bare origin |
| SearchParams.GetFindsFirst | app/auth/callback/page.tsx:40 | `get` answers the first pair with the name, and nothing exactly when no pair has it |
| SearchParams.RemoveAll | app/auth/callback/page.tsx:27 | removing a name leaves no pair with it and every other name's value unchanged |
| SearchParams.Set | app/auth/callback/page.tsx:27 | after `set`, the name reads the new value, every other name reads as before, and a new name is appended at the end |
| SearchParams.SplitNameValue | app/auth/callback/page.tsx:33 | a query piece splits at its first `=`: name plus `=` plus value gives the piece back, and a piece without `=` is all name |
| SearchParams.NonEmpty | app/auth/callback/page.tsx:33 | the kept pieces are non-empty pieces of the input, and with no empty piece the input is kept whole |
| SearchParams.ParsePiecesDecodesNonEmpty | app/auth/callback/page.tsx:33 | the parser's pairs are exactly the non-empty pieces, in order, each split at its first `=` and decoded into name and value |
| SearchParams.ParsePiecesConcat | app/auth/callback/page.tsx:33 | parsing is piecewise: two runs of pieces parse to the concatenation of their pairs |
| SearchParams.SkipsEmptyPiece | app/auth/callback/page.tsx:33 | an empty piece anywhere contributes nothing |
| SearchParams.ParseUrlEncoded | app/auth/callback/page.tsx:33 | a query without `&` gives no pair when empty and exactly one decoded pair otherwise |
| SearchParams.ParseUrlEncodedConcat | app/auth/callback/page.tsx:33 | two queries joined by `&` parse to the concatenation of their pairs |
| SearchParams.QuestionMarkOptional | app/auth/callback/page.tsx:33 | a single leading `?` makes no difference to the pairs read, and `?` alone reads as no pairs |
| SearchParams.ParseSerializeRoundTrip | app/auth/callback/page.tsx:33 | parsing the serialisation of pairs free of `&` and of `=` in names gives the same pairs back |
| SearchParams.NameValueUnique | app/auth/callback/page.tsx:33 | `name=value` determines name and value when names have no `=` |
| SearchParams.ReadPiece | app/auth/callback/page.tsx:26 | a fragment piece yields the text before its first `=` and the text up to the next `=`: the piece starts with name, `=`, value, followed by its end or another `=`; neither part contains `=`, and a piece without `=` is the whole name with an empty value |
| SearchParams.ApplyFragmentPiece | app/auth/callback/page.tsx:27 | one fragment step fails iff an earlier step failed or this named piece's decoding throws; a failure stands unchanged, and a new one carries the decoding error |
| SearchParams.FragmentSucceedsWithoutThrow | app/auth/callback/page.tsx:23-29 | a successful fragment parse met no named piece whose value fails to decode |
| SearchParams.FragmentFailsOnFirstThrow | app/auth/callback/page.tsx:23-29 | a failed fragment parse fails with the error of the first named piece whose decoding throws |
| SearchParams.FragmentLastWins | app/auth/callback/page.tsx:23-29 | after a successful fragment parse, each name reads the decoded value of its last piece |
| SearchParams.ParseFragment | app/auth/callback/page.tsx:23-29 | an empty fragment gives no pairs; on success each name reads the decoded value of its last piece; on failure the error is that of the first named piece whose decoding throws |
| SearchParams.MergeQuery | app/auth/callback/page.tsx:31-37 | the merged list reads the existing value for every name already present and the query's first value for the others |
| Text.Split | app/auth/callback/page.tsx:25 | `split` gives at least one part, no part contains the separator, and joining the parts gives the text back |
| Text.SplitJoin | app/auth/callback/page.tsx:25 | splitting the join of separator-free parts gives the parts back |
| Text.FirstTwo | app/auth/callback/page.tsx:26 | `[k, v] = s.split(sep)`: two separator-free parts, the whole text when there is no separator, otherwise the text before the first separator and the text between the first and second |
| Text.LowerChar | app/auth/callback/page.tsx:81 | ASCII capitals and U+212A KELVIN SIGN map to their lower-case ASCII letters; every other character is kept |
| Text.ToLower | app/auth/callback/page.tsx:81 | lower-casing keeps the length and maps each character on its own |
| Text.ToLowerIdempotent | app/auth/callback/page.tsx:81 | lower-casing twice is lower-casing once, and it yields the empty text only from the empty text |
| Text.Trim | components/registration-form.tsx:52 | the result is the input with an all-whitespace prefix and an all-whitespace suffix removed, and it neither starts nor ends with whitespace |
| Text.TrimEmptyIff | components/registration-form.tsx:52 | a text trims to empty exactly when it is all whitespace |
| Text.Includes | components/registration-form.tsx:102 | `includes` is true exactly when the needle occurs at some position |
| RegistrationForm.ValidateEmail | components/registration-form.tsx:34-37 | true exactly when the whole string is a non-empty `@`-free, space-free local part, one `@`, and a domain with a `.` that has text on both sides |
| RegistrationForm.EmailCheckIffPattern | components/registration-form.tsx:35 | the first-`@` scan accepts exactly the strings the anchored pattern matches |
| RegistrationForm.HasClassFrom | components/registration-form.tsx:40-43 | a character-class test is true exactly when some character from the start position is in the class |
| RegistrationForm.ValidatePassword | components/registration-form.tsx:39-47 | true exactly when the password has at least 8 characters and at least one upper-case letter, lower-case letter, digit and listed symbol |
| RegistrationForm.ValidateForm | components/registration-form.tsx:49-75 | a field has an entry exactly when it breaks its own rule (blank username, bad email, weak password, no gender, age not a number in [13, 120]), with that field's message |
| RegistrationForm.FieldFailsIff | components/registration-form.tsx:52-71 | each field's check rejects exactly what its rule rejects |
| RegistrationForm.FormValidIff | components/registration-form.tsx:73-74 | the form is valid exactly when every field passes its rule |
| RegistrationForm.SignUpErrorMessage | components/registration-form.tsx:99-107 | an error whose message contains "already registered" at some position gives the fixed account-exists text; any other gives the error's serialisation |
| RegistrationForm.Submit | components/registration-form.tsx:77-126 | invalid input makes no sign-up call and reports the errors; a valid form signs up with its email and password; the verification screen follows exactly a returned user, showing the submitted email; an error object gives the classified message; no user and no error gives the serialised call data with "No user returned from signup"; an exception gives the fixed unexpected-error text |
| RegistrationForm.BlankUsernameRejected | components/registration-form.tsx:52-54 | a username of only spaces is rejected and blocks the sign-up call |
| LoginForm.DotFrom | components/login-form.tsx:36 | the scan finds a qualifying `.` exactly when one exists past the position within an unbroken non-space run |
| LoginForm.AtFrom | components/login-form.tsx:36 | the scan finds a working `@` exactly when one exists at or after the position |
| LoginForm.AtWorksIffMatch | components/login-form.tsx:36 | an `@` that works exists exactly when the unanchored pattern matches somewhere |
| LoginForm.LooseEmail | components/login-form.tsx:36 | the format test is true exactly when some substring is non-space text, `@`, non-space text, `.`, non-space text |
| LoginForm.ValidateForm | components/login-form.tsx:31-46 | an empty email is "required" and never format-checked; a non-empty one errs exactly when the pattern fails; a password errs exactly when empty |
| LoginForm.FormValidIff | components/login-form.tsx:44-45 | the form is valid exactly when the email matches the pattern and a password is given |
| LoginForm.ProfileToUserData | components/login-form.tsx:71-77 | the user record copies the profile's username and email and the typed password; gender falls back to "prefer-not-to-say", a missing or zero age to 30 |
| LoginForm.Submit | components/login-form.tsx:48-88 | an invalid form makes no call; an error object shows its message and stops; the profile is looked up only for a returned user, by that user's id; sign-in succeeds exactly when both user and profile exist; an exception gives "An unexpected error occurred"; no user, or no profile, leaves the form as it was |
| LoginForm.Callbacks | components/login-form.tsx:78-79 | the wizard is called back exactly on a successful sign-in |
| LoginForm.SignInReachesScanner | components/login-form.tsx:66-80 | a successful sign-in puts the wizard on the scanning step with the profile's record and the balance unchanged; any other outcome leaves the wizard as it was |
| Wizard.Apply | app/page.tsx:42-88 | each callback changes only the fields it names (only step callbacks move the step, only points callbacks change the balance, each flag has its own callbacks), and the record, token and flag callbacks set exactly the value they carry: the user record, the token, payment form shown or hidden, dashboard shown or hidden |
| Wizard.ToggleLoginModeInvolution | app/page.tsx:58-60 | toggling flips the login mode, and toggling twice restores the state |
| Wizard.NextStepOnlyAdvances | app/page.tsx:42-44 | `nextStep` adds exactly one to the step and changes nothing else |
| Wizard.PaymentCompleteDecomposes | app/page.tsx:70-76 | completing a payment adds the points and equals hiding the form and then setting the new balance |
| Wizard.UpdatePointsAndSkip | app/page.tsx:54-88 | `updatePoints` sets the balance to exactly its argument and is idempotent; `skipToTesting` sets the step to 4 |
| Wizard.BothPathsReachTesting | app/page.tsx:147-161 | from step 1, three `nextStep`s and one `skipToTesting` both reach the scanning step, without touching the balance |
| Wizard.PointsOnlyMovedByPointCallbacks | app/page.tsx:42-88 | any run of callbacks without a points callback leaves the balance unchanged |
| Wizard.Views | app/page.tsx:141-163 | the dashboard renders iff shown at step 4, the payment form iff shown; with the dashboard shown no step component renders, otherwise at most one; at step 1 registration iff not in login mode and login iff in it |
| Wizard.Buttons | app/page.tsx:110-125 | "Dashboard" shows iff at step 4 with the dashboard hidden, "Back to Scanner" iff the dashboard is shown |
| Wizard.HeaderButtonsAlternate | app/page.tsx:110-125 | the two header buttons never show together, exactly one shows at step 4, and pressing one brings up the other |
| Wizard.ToggleSwapsForms | app/page.tsx:149-154 | at step 1, toggling the login mode swaps the registration form and the login form |
| Wizard.InitialScreen | app/page.tsx:32-40 | the first screen shows only the registration form and no header button |
| Scanner.HandleImageUpload | components/agriscan-testing.tsx:67-83 | the size alert shows exactly for a file over 10 MiB; then, or with no file, the state is unchanged; otherwise only the selection changes |
| Scanner.PreviewLoaded | components/agriscan-testing.tsx:78-80 | the preview becomes the read data URL and nothing else changes |
| Scanner.Confidence | components/agriscan-testing.tsx:93 | the confidence is 85 plus the floor of fifteen times the draw, so within 85..99 |
| Scanner.Jitter | components/agriscan-testing.tsx:95-96 | a jittered coordinate stays within 0.001 degrees of the original |
| Scanner.RunScan | components/agriscan-testing.tsx:85-115 | a scan completes iff an image is selected, the balance is at least 5 and a location is known; it reports exactly five points less, prepends one result within the confidence and location bounds with healthy iff the draw exceeds 0.4, and clears the selection, the preview and the running flag |
| Scanner.CanRunTest | components/agriscan-testing.tsx:117 | the button is enabled exactly when the scan handler would run (an image, a balance of at least 5, a known location) and no scan is running |
| Scanner.EnabledRunCompletes | components/agriscan-testing.tsx:85-117 | pressing an enabled button completes a scan; a completed scan not started mid-run had an enabled button |
| Scanner.ScanChargesWizard | components/agriscan-testing.tsx:107 | the balance reported to the wizard takes exactly five points off its balance and leaves its step |
| Scanner.SessionAccounting | components/agriscan-testing.tsx:85-115 | over any series of attempts the balance falls by exactly five per recorded result, never below zero, and earlier results stay at the end in order |
| Hex.DigitValueInverse | lib/clerk-auth.ts:30 | a character has a digit value exactly when it is a lower-case hex digit, and the value maps back to it |
| Hex.ToString16 | lib/clerk-auth.ts:30 | `toString(16)` of a byte has one digit below 16 and two, without a leading zero, from 16 on; read back as base-16 digits the text is worth the byte |
| Hex.PadStart | lib/clerk-auth.ts:30 | padding keeps the text as a suffix, reaches the width, and fills only the front |
| Hex.EncodeByte | lib/clerk-auth.ts:30 | each byte becomes exactly two digits, the high one first, a leading zero kept |
| Hex.Encode | lib/clerk-auth.ts:28-32 | the joined text has two lower-case hex digits per byte |
| Hex.DecodeEncode | lib/clerk-auth.ts:28-32 | reading the digits back gives the original bytes |
| Hex.EncodeInjective | lib/clerk-auth.ts:28-32 | different bytes give different texts |
| ClerkAuth.Slice | lib/clerk-auth.ts:36 | `slice(0, n)` is a prefix of length n, or the whole of a shorter text |
| ClerkAuth.GenerateToken | lib/clerk-auth.ts:28-32 | a token from 32 bytes has 64 lower-case hex digits and decodes back to those bytes |
| ClerkAuth.CreateUserProfile | lib/clerk-auth.ts:34-42 | the row keys the provider id; the username is the user's when non-empty, else `user_` and the id's first 8 characters; the email or ""; gender and age only when truthy; 1000 points; a token that decodes to the random bytes |
| ClerkAuth.TokensDifferWithBytes | lib/clerk-auth.ts:28-41 | two profiles made from different random bytes get different tokens |
| ClerkAuth.Single | lib/clerk-auth.ts:15-19 | `.single()` returns a row exactly when one row has the provider id, and then that row |
| ClerkAuth.GetUserProfile | lib/clerk-auth.ts:13-22 | the profile is found exactly when one row has the provider id |
| ClerkAuth.CreatedProfileIsFound | lib/clerk-auth.ts:24-51 | a profile inserted for a new provider id is the one then looked up |
| ClerkAuth.UpdateUserPoints | lib/clerk-auth.ts:53-63 | with exactly one row for the provider id, that row gets the new balance and the others stay; with none or several, `.single()` fails and the update is rolled back, leaving the table unchanged; a row is answered exactly when one row matched, and it is that matching row with the new balance, as it now stands in the table |
| ClerkAuth.ForProfile | lib/clerk-auth.ts:76-94 | an insert is refused with "Profile not found" exactly when the provider id does not single out one profile; otherwise the row inserted is the one built for that profile's key |
| ClerkAuth.CreateScan | lib/clerk-auth.ts:65-97 | without exactly one profile it refuses with "Profile not found" and inserts nothing; otherwise it inserts the caller's scan with only the user id replaced by the profile's key |
| ClerkAuth.GetUserScans | lib/clerk-auth.ts:99-120 | without exactly one profile, an empty list and "Profile not found"; otherwise the scans query's own data and error for the profile's key, unchanged |
| ClerkAuth.CreatePayment | lib/clerk-auth.ts:122-151 | without exactly one profile it refuses with "Profile not found"; otherwise it inserts the payment with only the user id replaced by the profile's key |
| ClerkAuth.HelpersAgree | lib/clerk-auth.ts:76-139 | the scan, payment and scan-list helpers agree on when a profile is missing, with the same "Profile not found" text, and all address the same profile key |

## Left out

- Supabase and Clerk calls (`exchangeCodeForSession`, `setSession`, `verifyOtp`, `signUp`, `signInWithPassword`): each is an abstract function from request to reply. The profile-table reads are also abstract, as a lookup function or a list of rows.
- React and browser plumbing (`useState`, `useEffect`, `router`, `window.history`, `FileReader`, `setTimeout`, console logging): navigation and URL scrubbing are events in a trace, and state is a value.
- `decodeURIComponent`, the query parser's `+`/percent-decoding and `Number.parseInt` are abstract functions. `None` stands for `NaN`, and a decoding `Failure` stands for the exception.
- `Text.ToLower`: lower-cases the ASCII capitals and U+212A KELVIN SIGN (to `k`) and keeps every other character. `toLowerCase` also maps other non-ASCII letters, always to text that is not an allowed one-time-token type (U+0130 becomes `i` plus U+0307), so the type passed on is the same.
- `Text.IsSpace` and string lengths work on Dafny characters, not UTF-16 code units. `RegistrationForm.ValidatePassword` counts characters, not code units.
- `Scanner.Jitter`, `Scanner.Confidence`: floating-point numbers are exact reals, so rounding in `Math.random() * 15` and in the jitter is not modelled.
- `JSON.stringify` of an error object is a given `serialised` text, and that of the sign-up call's data with "No user returned from signup" is the given `noUserText`.
- The sign-up redirect URL is a constant argument of the call and is not part of `RegistrationForm.SignUpRequest`.
- `Scanner.RunScan`: the scan is atomic. The intermediate `isScanning = true` state, the 1.5-second delay and a second run started during it are not modelled.
- Geolocation: the device location, or the default (40.7128, -74.006), is an input `location`.
- `CallbackRoute.Handle`: the redirect is stated as text. `NextResponse.redirect` sends the parsed URL, whose host is not modelled; a `next` such as `@evil.com` gives a text that starts with the origin but a URL whose host is `evil.com`. URL parsing itself is the input `parses`.
- `CallbackRoute.Decide`, `CallbackRoute.Handle`: the error-page and root redirects are taken to parse, since they are built from the origin of a URL that already parsed.
- The ordering of `getUserScans`' scan query is the database's and is passed in as `scansOf`. The table's generated profile id is passed in as `newId`. Insert errors from the database are not modelled.
- A profile lookup that throws after a successful sign-in is not modelled; it would end in the sign-in form's generic error.
- `components/dashboard.tsx`, `components/verification-step.tsx`, `lib/auth.ts`, the payment and token-creation components, and Clerk's `getCurrentUser`/`getCurrentUserId`: presentation or thin wrappers with no decision logic.

=== FILE: callback_page.dfy ===
/** The client-side authentication callback page (`app/auth/callback/page.tsx`).
    On load it gathers parameters from the URL fragment and the query string,
    picks exactly one of four flows in a fixed priority order, makes at most
    one session-service call, and then either scrubs the visible URL and
    navigates, or stays on the page showing a status line and an error.

    Browser effects are recorded as a trace of events in the order the page
    performs them; the session service is a function from call to reply. */
module CallbackPage {
  import opened Wrappers
  import Text
  import SP = SearchParams
  import opened Session

  /** The flow the merged parameters select. */
  datatype Flow =
    | CodeFlow(code: string, next: string)
    | TokenPairFlow(accessToken: string, refreshToken: Option<string>)
    | OtpFlow(tokenHash: string, otpType: string)
    | NoMatch

  /** What the page shows or does, in order. `UrlScrubbed(p)` is the
      `history.replaceState` that leaves only the pathname `p` in the
      address bar; `Navigated(d)` is `router.replace(d)`. */
  datatype Event =
    | StatusShown(text: string)
    | ErrorShown(text: string)
    | Called(call: Call)
    | UrlScrubbed(url: string)
    | Navigated(destination: string)

  /** The parts of `window.location` the page reads. `search` is empty or
      starts with `?`; `hash` is empty or starts with `#`. */
  datatype PageLocation = PageLocation(pathname: string, search: string, hash: string)

  const DefaultLanding: string := "/dashboard"

  /** The one-time-token types the service accepts. */
  const AllowedOtpTypes: seq<string> := ["signup", "magiclink", "recovery", "invite", "email", "email_change"]

  const NoTokensStatus: string := "No tokens found in URL"
  const NoTokensError: string := "No verification tokens or access tokens found in URL fragment or query parameters."
  const UnexpectedStatus: string := "Unexpected error"

  // ---------------------------------------------------------------------
  // Parameter collection
  // ---------------------------------------------------------------------

  /** The fragment's pairs: parsed only when the hash is non-empty and starts
      with `#`; a value whose percent-decoding throws fails the parse. */
  function FragmentParams(loc: PageLocation, decode: string -> Result<string, string>): (r: Result<SP.Params, string>)
    // no fragment, a bare `#`, or a hash not starting with `#` contributes nothing
    ensures |loc.hash| <= 1 || loc.hash[0] != '#' ==> r == Success([])
    ensures |loc.hash| > 1 && loc.hash[0] == '#' ==> r == SP.ParseFragment(loc.hash[1..], decode)
  {
    if |loc.hash| > 0 && loc.hash[0] == '#' then SP.ParseFragment(loc.hash[1..], decode)
    else Success([])
  }

  /** The query's pairs: `new URLSearchParams(search)` when `search` is non-empty. */
  function QueryParams(loc: PageLocation, queryDecode: string -> string): (ps: SP.Params)
    // an empty search and a bare `?` give no pairs
    ensures |loc.search| <= 1 && (loc.search == "" || loc.search[0] == '?') ==> ps == []
    ensures |loc.search| > 0 && loc.search[0] == '?' ==> ps == SP.ParseUrlEncoded(loc.search[1..], queryDecode)
  {
    if loc.search != "" then SP.FromInit(loc.search, queryDecode) else []
  }

  /** The merged parameter map: the fragment's pairs, then every query name
      the fragment lacks. A name in both keeps the fragment's value. */
  function CollectParams(loc: PageLocation, decode: string -> Result<string, string>, queryDecode: string -> string)
    : (r: Result<SP.Params, string>)
    ensures r.Failure? <==> FragmentParams(loc, decode).Failure?
    ensures r.Failure? ==> r.error == FragmentParams(loc, decode).error
    ensures r.Success? ==> forall k ::
      SP.Get(r.value, k) ==
        (if SP.Has(FragmentParams(loc, decode).value, k) then SP.Get(FragmentParams(loc, decode).value, k)
         else SP.Get(QueryParams(loc, queryDecode), k))
  {
    match FragmentParams(loc, decode)
    case Failure(e) => Failure(e)
    case Success(fragment) =>
      if loc.search != "" then Success(SP.MergeQuery(fragment, QueryParams(loc, queryDecode)))
      else Success(fragment)
  }

  // ---------------------------------------------------------------------
  // Flow selection
  // ---------------------------------------------------------------------

  /** The `type` parameter as the page passes it on: a lower-cased value
      outside the allowed set degrades to `email`. */
  function ResolveOtpType(loweredType: string): (t: string)
    ensures t in AllowedOtpTypes
    ensures loweredType in AllowedOtpTypes ==> t == loweredType
    ensures loweredType !in AllowedOtpTypes ==> t == "email"
  {
    if loweredType in AllowedOtpTypes then loweredType else "email"
  }

  /** The page's `tokenHash`: `token_hash`, or the legacy `token` when
      `token_hash` is missing or empty. */
  function TokenHash(ps: SP.Params): (h: Option<string>)
    ensures Truthy(h) <==> Truthy(SP.Get(ps, "token_hash")) || Truthy(SP.Get(ps, "token"))
    ensures Truthy(SP.Get(ps, "token_hash")) ==> h == SP.Get(ps, "token_hash")
    ensures !Truthy(SP.Get(ps, "token_hash")) ==> h == SP.Get(ps, "token")
  {
    OrElse(SP.Get(ps, "token_hash"), SP.Get(ps, "token"))
  }

  /** The page's `rawType`: `type` lower-cased, empty when missing. */
  function RawType(ps: SP.Params): (r: string)
    ensures r == "" <==> !Truthy(SP.Get(ps, "type"))
    ensures Text.ToLower(r) == r
    ensures Truthy(SP.Get(ps, "type")) ==>
      |r| == |SP.Get(ps, "type").value|
      && forall i :: 0 <= i < |r| ==> r[i] == Text.LowerChar(SP.Get(ps, "type").value[i])
  {
    Text.ToLowerIdempotent(TruthyOr(SP.Get(ps, "type"), ""));
    Text.ToLower(TruthyOr(SP.Get(ps, "type"), ""))
  }

  /** The flow a merged map selects: a non-empty `code`, else a non-empty
      `access_token`, else a non-empty token hash with a non-empty `type`,
      else nothing. */
  function Classify(ps: SP.Params): (f: Flow)
    ensures f.CodeFlow? <==> Truthy(SP.Get(ps, "code"))
    ensures f.TokenPairFlow? <==> !Truthy(SP.Get(ps, "code")) && Truthy(SP.Get(ps, "access_token"))
    ensures f.OtpFlow? <==>
      && !Truthy(SP.Get(ps, "code")) && !Truthy(SP.Get(ps, "access_token"))
      && Truthy(TokenHash(ps)) && Truthy(SP.Get(ps, "type"))
    ensures f.CodeFlow? ==> f.code != "" && f.next != ""
    ensures f.TokenPairFlow? ==> f.accessToken != "" && (f.refreshToken.None? || f.refreshToken.value != "")
    ensures f.OtpFlow? ==> f.tokenHash != "" && f.otpType in AllowedOtpTypes
    // the values each flow carries
    ensures f.CodeFlow? ==> f == CodeFlow(SP.Get(ps, "code").value, TruthyOr(SP.Get(ps, "next"), DefaultLanding))
    ensures f.TokenPairFlow? ==>
      f == TokenPairFlow(SP.Get(ps, "access_token").value,
                         if Truthy(SP.Get(ps, "refresh_token")) then SP.Get(ps, "refresh_token") else None)
    ensures f.OtpFlow? ==> f == OtpFlow(TokenHash(ps).value, ResolveOtpType(RawType(ps)))
  {
    var code := SP.Get(ps, "code");
    var next := TruthyOr(SP.Get(ps, "next"), DefaultLanding);
    if Truthy(code) then CodeFlow(code.value, next)
    else
      var access := SP.Get(ps, "access_token");
      var refresh := SP.Get(ps, "refresh_token");
      if Truthy(access) then TokenPairFlow(access.value, if Truthy(refresh) then refresh else None)
      else
        var hash := TokenHash(ps);
        var raw := RawType(ps);
        if Truthy(hash) && raw != "" then OtpFlow(hash.value, ResolveOtpType(raw))
        else NoMatch
  }

  /** The session call a flow makes; the no-match fallback makes none. */
  function CallFor(f: Flow): (c: Option<Call>)
    ensures c.None? <==> f.NoMatch?
  {
    match f
    case CodeFlow(code, _) => Some(ExchangeCode(code))
    case TokenPairFlow(access, refresh) => Some(SetSession(access, refresh))
    case OtpFlow(hash, t) => Some(VerifyOtp(hash, t))
    case NoMatch => None
  }

  // ---------------------------------------------------------------------
  // Running the page
  // ---------------------------------------------------------------------

  predicate IsNavigation(e: Event) { e.Navigated? }
  predicate IsError(e: Event) { e.ErrorShown? }
  predicate IsCall(e: Event) { e.Called? }

  /** A reply the page takes as success: it carries no error object and the
      call did not throw. */
  predicate Succeeded(r: Reply) { !r.Failed? && !r.Threw? }

  /** The status line a calling flow shows while its call is pending. */
  function PendingStatus(f: Flow): string
    requires !f.NoMatch?
  {
    match f
    case CodeFlow(_, _) => "Exchanging code for session..."
    case TokenPairFlow(_, _) => "Setting session from fragment tokens..."
    case OtpFlow(_, _) => "Verifying email token..."
  }

  /** The status line a calling flow shows under a returned error object. */
  function FailedStatus(f: Flow): string
    requires !f.NoMatch?
  {
    match f
    case CodeFlow(_, _) => "Failed to exchange code"
    case TokenPairFlow(_, _) => "Failed to set session"
    case OtpFlow(_, _) => "Failed to verify token"
  }

  /** Where a successful flow navigates: `next` for the code flow, the
      default landing page otherwise. */
  function Destination(f: Flow): string {
    if f.CodeFlow? then f.next else DefaultLanding
  }

  /** The events after a service reply: an error object is shown with the
      flow's own status line; a thrown exception is shown as unexpected;
      any other reply (a user, or no error at all) scrubs the URL down to the
      pathname and then navigates. */
  function Settle(reply: Reply, failedStatus: string, pathname: string, destination: string): (t: seq<Event>)
    ensures |t| == 2 && !t[0].Called? && !t[1].Called?
    // navigation exactly on success, and then only scrub-and-navigate
    ensures IsNavigation(t[1]) <==> Succeeded(reply)
    ensures Succeeded(reply) ==> t == [UrlScrubbed(pathname), Navigated(destination)]
    // the two failure screens
    ensures reply.Failed? ==> t == [ErrorShown(ErrorText(reply.error)), StatusShown(failedStatus)]
    ensures reply.Threw? ==> t == [ErrorShown(reply.text), StatusShown(UnexpectedStatus)]
  {
    match reply
    case Failed(e) => [ErrorShown(ErrorText(e)), StatusShown(failedStatus)]
    case Threw(text) => [ErrorShown(text), StatusShown(UnexpectedStatus)]
    case _ => [UrlScrubbed(pathname), Navigated(destination)]
  }

  /** The events of a flow that calls the service: its status line, the
      call, then the settled reply. */
  function Attempt(status: string, call: Call, failedStatus: string, pathname: string, destination: string,
                   service: Call -> Reply): (t: seq<Event>)
    ensures |t| == 4 && t[0] == StatusShown(status) && t[1] == Called(call) && !IsCall(t[2]) && !IsCall(t[3])
    ensures !IsNavigation(t[2]) && (IsNavigation(t[3]) <==> !IsError(t[2]) && !IsError(t[3]))
    // the reply alone decides between navigating and an error screen
    ensures IsNavigation(t[3]) <==> Succeeded(service(call))
    ensures IsNavigation(t[3]) ==> t[2] == UrlScrubbed(pathname) && t[3] == Navigated(destination)
    ensures !IsNavigation(t[3]) ==> t[2].ErrorShown? && t[3].StatusShown?
  {
    [StatusShown(status), Called(call)] + Settle(service(call), failedStatus, pathname, destination)
  }

  /** The events of one flow. */
  function Dispatch(f: Flow, pathname: string, service: Call -> Reply): (t: seq<Event>)
    ensures |t| >= 2
    ensures IsNavigation(t[|t| - 1]) <==> forall i :: 0 <= i < |t| ==> !IsError(t[i])
    ensures forall i :: 0 <= i < |t| && IsNavigation(t[i]) ==>
              i == |t| - 1 && i >= 1 && t[i - 1] == UrlScrubbed(pathname)
    ensures forall i :: 0 <= i < |t| && IsCall(t[i]) ==> i == 1 && CallFor(f) == Some(t[i].call)
    // no match: the fixed "no tokens" screen and no call
    ensures f.NoMatch? ==> t == [StatusShown(NoTokensStatus), ErrorShown(NoTokensError)]
    // a calling flow: its pending status, its call, then the reply decides
    ensures !f.NoMatch? ==> |t| == 4 && t[0] == StatusShown(PendingStatus(f)) && t[1] == Called(CallFor(f).value)
    ensures IsNavigation(t[|t| - 1]) <==> !f.NoMatch? && Succeeded(service(CallFor(f).value))
    ensures IsNavigation(t[|t| - 1]) ==> t[|t| - 1] == Navigated(Destination(f))
    ensures !f.NoMatch? && service(CallFor(f).value).Failed? ==>
              t[2..] == [ErrorShown(ErrorText(service(CallFor(f).value).error)), StatusShown(FailedStatus(f))]
    ensures !f.NoMatch? && service(CallFor(f).value).Threw? ==>
              t[2..] == [ErrorShown(service(CallFor(f).value).text), StatusShown(UnexpectedStatus)]
  {
    match f
    case CodeFlow(code, next) =>
      Attempt("Exchanging code for session...", ExchangeCode(code), "Failed to exchange code", pathname, next, service)
    case TokenPairFlow(access, refresh) =>
      Attempt("Setting session from fragment tokens...", SetSession(access, refresh), "Failed to set session",
              pathname, DefaultLanding, service)
    case OtpFlow(hash, t) =>
      Attempt("Verifying email token...", VerifyOtp(hash, t), "Failed to verify token", pathname, DefaultLanding, service)
    case NoMatch =>
      [StatusShown(NoTokensStatus), ErrorShown(NoTokensError)]
  }

  /** The whole `run` of the page for one location. `decode` is
      `decodeURIComponent` (a failure is the exception it throws);
      `queryDecode` is the query parser's percent-decoding. */
  function Run(loc: PageLocation, decode: string -> Result<string, string>, queryDecode: string -> string,
               service: Call -> Reply): (t: seq<Event>)
    // the page ends by navigating exactly when it shows no error
    ensures |t| >= 2
    ensures IsNavigation(t[|t| - 1]) <==> forall i :: 0 <= i < |t| ==> !IsError(t[i])
    // a navigation is the last event and comes right after scrubbing the URL to the bare pathname
    ensures forall i :: 0 <= i < |t| && IsNavigation(t[i]) ==>
              i == |t| - 1 && i >= 1 && t[i - 1] == UrlScrubbed(loc.pathname)
    // at most one service call, and it is the one the selected flow makes
    ensures forall i, j :: 0 <= i < |t| && 0 <= j < |t| && IsCall(t[i]) && IsCall(t[j]) ==> i == j
    ensures forall i :: 0 <= i < |t| && IsCall(t[i]) ==>
              CollectParams(loc, decode, queryDecode).Success?
              && CallFor(Classify(CollectParams(loc, decode, queryDecode).value)) == Some(t[i].call)
    // it navigates exactly when a call was made and its reply succeeded
    ensures IsNavigation(t[|t| - 1]) <==>
      exists i :: 0 <= i < |t| && IsCall(t[i]) && Succeeded(service(t[i].call))
  {
    Conclude(CollectParams(loc, decode, queryDecode), loc.pathname, service)
  }

  /** The page after parameter collection: a thrown decoding error is shown
      as unexpected, otherwise the selected flow runs. */
  function Conclude(collected: Result<SP.Params, string>, pathname: string, service: Call -> Reply): (t: seq<Event>)
    ensures |t| >= 2
    ensures IsNavigation(t[|t| - 1]) <==> forall i :: 0 <= i < |t| ==> !IsError(t[i])
    ensures forall i :: 0 <= i < |t| && IsNavigation(t[i]) ==>
              i == |t| - 1 && i >= 1 && t[i - 1] == UrlScrubbed(pathname)
    ensures forall i :: 0 <= i < |t| && IsCall(t[i]) ==>
              i == 1 && collected.Success? && CallFor(Classify(collected.value)) == Some(t[i].call)
    // a decoding failure: its text as an unexpected error, and no call
    ensures collected.Failure? ==> t == [ErrorShown(collected.error), StatusShown(UnexpectedStatus)]
    ensures IsNavigation(t[|t| - 1]) <==>
      exists i :: 0 <= i < |t| && IsCall(t[i]) && Succeeded(service(t[i].call))
  {
    match collected
    case Failure(e) =>
      var t := [ErrorShown(e), StatusShown(UnexpectedStatus)];
      assert IsError(t[0]);
      t
    case Success(ps) => Dispatch(Classify(ps), pathname, service)
  }

  // ---------------------------------------------------------------------
  // Properties relating the steps
  // ---------------------------------------------------------------------

  /** A map carrying both a `code` and an `access_token` runs only the code
      exchange: the trace holds that call and no other. */
  lemma CodeBeatsAccessToken(ps: SP.Params, pathname: string, service: Call -> Reply)
    requires Truthy(SP.Get(ps, "code")) && Truthy(SP.Get(ps, "access_token"))
    ensures var t := Dispatch(Classify(ps), pathname, service);
      forall i :: 0 <= i < |t| && t[i].Called? ==> t[i].call == ExchangeCode(SP.Get(ps, "code").value)
  {
  }

  /** The destination of a navigation: `next` (when non-empty) for the code
      flow, the default landing page for the token-pair and one-time-token
      flows, whatever `next` says. */
  lemma NavigationTarget(ps: SP.Params, pathname: string, service: Call -> Reply)
    ensures var t := Dispatch(Classify(ps), pathname, service);
      forall i :: 0 <= i < |t| && t[i].Navigated? ==>
        t[i].destination ==
          (if Truthy(SP.Get(ps, "code")) then TruthyOr(SP.Get(ps, "next"), DefaultLanding) else DefaultLanding)
  {
  }

  /** The token pair is installed with the refresh token only when it is
      non-empty; a missing refresh token still makes the call. */
  lemma RefreshTokenOptional(ps: SP.Params)
    requires !Truthy(SP.Get(ps, "code")) && Truthy(SP.Get(ps, "access_token"))
    ensures CallFor(Classify(ps)) ==
      Some(SetSession(SP.Get(ps, "access_token").value,
                      if Truthy(SP.Get(ps, "refresh_token")) then SP.Get(ps, "refresh_token") else None))
  {
  }

  /** A one-time token with any non-empty `type` is verified, never
      rejected: the type is lower-cased and kept when allowed, otherwise
      replaced by `email`. */
  lemma OtpTypeNeverRejected(ps: SP.Params)
    requires !Truthy(SP.Get(ps, "code")) && !Truthy(SP.Get(ps, "access_token"))
    requires Truthy(TokenHash(ps)) && Truthy(SP.Get(ps, "type"))
    ensures Classify(ps).OtpFlow?
    ensures var lowered := Text.ToLower(SP.Get(ps, "type").value);
      Classify(ps).otpType == (if lowered in AllowedOtpTypes then lowered else "email")
  {
  }

  /** The failure screens: an error object shows its message (or its
      serialisation) under the flow's status; no match shows the fixed
      "no tokens" texts; a throw shows its text as an unexpected error. */
  lemma FailureScreens(loc: PageLocation, decode: string -> Result<string, string>, queryDecode: string -> string,
                       service: Call -> Reply)
    ensures var r := CollectParams(loc, decode, queryDecode);
      && (r.Failure? ==> Run(loc, decode, queryDecode, service) == [ErrorShown(r.error), StatusShown(UnexpectedStatus)])
      && (r.Success? && Classify(r.value).NoMatch? ==>
            Run(loc, decode, queryDecode, service) == [StatusShown(NoTokensStatus), ErrorShown(NoTokensError)])
      && (r.Success? && Classify(r.value).CodeFlow? && service(ExchangeCode(Classify(r.value).code)).Failed? ==>
            Run(loc, decode, queryDecode, service)[2..] ==
              [ErrorShown(ErrorText(service(ExchangeCode(Classify(r.value).code)).error)),
               StatusShown("Failed to exchange code")])
  {
  }

  /** For every flow that calls the service, the reply alone decides how
      the page ends: a user or an empty answer scrubs the URL to the
      pathname and navigates (to a non-empty `next` or `/dashboard` for a
      code, to `/dashboard` otherwise); an error object shows its text under
      the flow's failure status; an exception shows its text as
      unexpected. */
  lemma ReplyDecidesEnding(loc: PageLocation, decode: string -> Result<string, string>, queryDecode: string -> string,
                           service: Call -> Reply)
    requires CollectParams(loc, decode, queryDecode).Success?
    requires !Classify(CollectParams(loc, decode, queryDecode).value).NoMatch?
    ensures var ps := CollectParams(loc, decode, queryDecode).value;
      var call := CallFor(Classify(ps)).value;
      var reply := service(call);
      var t := Run(loc, decode, queryDecode, service);
      var dest := if Truthy(SP.Get(ps, "code")) then TruthyOr(SP.Get(ps, "next"), DefaultLanding) else DefaultLanding;
      && |t| == 4 && t[1] == Called(call)
      && ((reply.User? || reply.Neither?) <==> t[2..] == [UrlScrubbed(loc.pathname), Navigated(dest)])
      && (reply.Failed? ==> t[2..] == [ErrorShown(ErrorText(reply.error)), StatusShown(FailedStatus(Classify(ps)))])
      && (reply.Threw? ==> t[2..] == [ErrorShown(reply.text), StatusShown(UnexpectedStatus)])
  {
    var ps := CollectParams(loc, decode, queryDecode).value;
    var f := Classify(ps);
    var t := Dispatch(f, loc.pathname, service);
    assert Run(loc, decode, queryDecode, service) == t;
    assert Destination(f) == if Truthy(SP.Get(ps, "code")) then TruthyOr(SP.Get(ps, "next"), DefaultLanding) else DefaultLanding;
    assert t[2..] == [t[2], t[3]];
  }
}

=== FILE: callback_route.dfy ===
/** The server-side authentication callback route (`app/auth/callback/route.ts`).
    It sees only the query string, tries the authorization-code exchange
    (section 4.1 of RFC 6749) and then the access/refresh token pair, and
    answers every request with a redirect: to `origin + next` on success, to
    `/auth/error?message=<reason>` on a failure, and to the site root when no
    branch produced an answer. The redirect parses its target as a URL, and
    the success redirect does so inside the branch's `try`: a target that
    does not parse ends on that branch's exception page. Unlike the client page it has no one-time-token
    branch, keeps an empty `next`, honours `next` for the token pair, and lets
    a code exchange that returns neither error nor user fall through to the
    later branches. */
module CallbackRoute {
  import opened Wrappers
  import SP = SearchParams
  import opened Session

  /** Why a request ended on the error page. */
  datatype Reason = ExchangeFailed | ExchangeException | SetSessionFailed | SetSessionException

  /** How the route ended, before it is rendered as a URL. */
  datatype Ending =
    | Authenticated(next: string)
    | Rejected(reason: Reason)
    | NothingMatched

  /** The route's answer: the session calls it made, in order, and how it ended. */
  datatype Response = Response(calls: seq<Call>, ending: Ending)

  /** The machine-readable reason code carried in the error page's query. */
  function ReasonCode(r: Reason): string {
    match r
    case ExchangeFailed => "exchange_failed"
    case ExchangeException => "exchange_exception"
    case SetSessionFailed => "set_session_failed"
    case SetSessionException => "set_session_exception"
  }

  const ErrorPagePrefix: string := "/auth/error?message="

  /** The error page for a reason, relative to the request's origin. */
  function ErrorUrl(origin: string, r: Reason): string {
    origin + ErrorPagePrefix + ReasonCode(r)
  }

  /** The redirect target of an ending, as text, relative to the request's
      origin. Error pages and the root are built from the origin of a URL
      that already parsed, so only the success target can fail to parse. */
  function Target(origin: string, e: Ending): (url: string)
    ensures |url| >= |origin| && url[..|origin|] == origin
    // the root fallback never looks like an error page, and distinct reasons give distinct targets
    ensures e.NothingMatched? ==> forall r :: url != ErrorUrl(origin, r)
    ensures e.Rejected? ==> url == ErrorUrl(origin, e.reason) && forall r :: r != e.reason ==> url != ErrorUrl(origin, r)
    ensures e.Authenticated? ==> url == origin + e.next
    ensures e.NothingMatched? ==> url == origin + "/"
  {
    match e
    case Authenticated(next) => origin + next
    case Rejected(r) =>
      assert forall r' :: r' != r ==> ErrorUrl(origin, r) != ErrorUrl(origin, r') by {
        forall r' | r' != r ensures ErrorUrl(origin, r) != ErrorUrl(origin, r') {
          ReasonCodesDiffer(origin + ErrorPagePrefix, r, r');
        }
      }
      ErrorUrl(origin, r)
    case NothingMatched =>
      var url := origin + "/";
      assert forall r :: |ErrorUrl(origin, r)| > |url|;
      url
  }

  /** Reason codes are pairwise distinct, even behind a common prefix. */
  lemma ReasonCodesDiffer(prefix: string, r: Reason, r': Reason)
    requires r != r'
    ensures prefix + ReasonCode(r) != prefix + ReasonCode(r')
  {
    assert (prefix + ReasonCode(r))[|prefix|..] == ReasonCode(r);
    assert (prefix + ReasonCode(r'))[|prefix|..] == ReasonCode(r');
  }

  /** `searchParams.get("next") ?? "/"`: only a missing `next` defaults. */
  function Next(ps: SP.Params): (n: string)
    ensures SP.Get(ps, "next").Some? ==> n == SP.Get(ps, "next").value
    ensures SP.Get(ps, "next").None? ==> n == "/"
  {
    SP.Get(ps, "next").GetOr("/")
  }

  /** How a branch ends once its call returned a user. The success redirect
      parses `origin + next` as a URL (`parses` says whether `new URL`
      accepts a text) and throws when it does not; the throw happens inside
      the branch's `try`, whose `catch` answers with `onThrow`. */
  function Landing(origin: string, ps: SP.Params, parses: string -> bool, onThrow: Reason): (e: Ending)
    ensures e == Authenticated(Next(ps)) <==> parses(origin + Next(ps))
    ensures e == Rejected(onThrow) <==> !parses(origin + Next(ps))
  {
    if parses(origin + Next(ps)) then Authenticated(Next(ps)) else Rejected(onThrow)
  }

  /** The token-pair branch and the root fallback behind it. The refresh
      token is passed whenever present, even when empty (`?? undefined`). */
  function TokenPairStage(origin: string, ps: SP.Params, service: Call -> Reply, parses: string -> bool): (r: Response)
    ensures !Truthy(SP.Get(ps, "access_token")) ==> r == Response([], NothingMatched)
    ensures Truthy(SP.Get(ps, "access_token")) ==>
              r.calls == [SetSession(SP.Get(ps, "access_token").value, SP.Get(ps, "refresh_token"))]
  {
    var access := SP.Get(ps, "access_token");
    if Truthy(access) then
      var call := SetSession(access.value, SP.Get(ps, "refresh_token"));
      match service(call)
      case Failed(_) => Response([call], Rejected(SetSessionFailed))
      case Threw(_) => Response([call], Rejected(SetSessionException))
      case User(_) => Response([call], Landing(origin, ps, parses, SetSessionException))
      case Neither => Response([call], NothingMatched)
    else Response([], NothingMatched)
  }

  /** The route's decision for a parsed query. */
  function Decide(origin: string, ps: SP.Params, service: Call -> Reply, parses: string -> bool): (r: Response)
    // the code exchange, when it runs, is the first call
    ensures Truthy(SP.Get(ps, "code")) ==> |r.calls| >= 1 && r.calls[0] == ExchangeCode(SP.Get(ps, "code").value)
    // at most two calls; two only when the exchange answered with neither error nor user
    ensures |r.calls| <= 2
    ensures |r.calls| == 2 ==> r.calls[0].ExchangeCode? && service(r.calls[0]).Neither? && r.calls[1].SetSession?
    // an error page only for a call that answered with an error or threw,
    // or that returned a user whose target does not parse
    ensures r.ending.Rejected? ==>
      && |r.calls| >= 1
      && var last := service(r.calls[|r.calls| - 1]);
         last.Failed? || last.Threw? || (last.User? && !parses(origin + Next(ps)))
    // success only for a call that returned a user, always to `next`, and only when the target parses
    ensures r.ending.Authenticated? ==>
      && |r.calls| >= 1 && service(r.calls[|r.calls| - 1]).User?
      && r.ending.next == Next(ps) && parses(origin + Next(ps))
    // without a non-empty code the route goes straight to the token-pair branch
    ensures !Truthy(SP.Get(ps, "code")) ==> r == TokenPairStage(origin, ps, service, parses)
  {
    var code := SP.Get(ps, "code");
    if Truthy(code) then
      var call := ExchangeCode(code.value);
      match service(call)
      case Failed(_) => Response([call], Rejected(ExchangeFailed))
      case Threw(_) => Response([call], Rejected(ExchangeException))
      case User(_) => Response([call], Landing(origin, ps, parses, ExchangeException))
      case Neither =>
        var rest := TokenPairStage(origin, ps, service, parses);
        Response([call] + rest.calls, rest.ending)
    else TokenPairStage(origin, ps, service, parses)
  }

  /** The redirect for a request, as text: `query` is the URL's query
      component (without `?`), `queryDecode` the query parser's
      percent-decoding, `parses` whether `new URL` accepts a text. */
  function Handle(origin: string, query: string, queryDecode: string -> string, service: Call -> Reply,
                  parses: string -> bool): (url: string)
    ensures |url| >= |origin| && url[..|origin|] == origin
    ensures var ps := SP.ParseUrlEncoded(query, queryDecode);
      var e := Decide(origin, ps, service, parses).ending;
      && (e.Authenticated? ==> url == origin + Next(ps) && parses(url))
      && (e.Rejected? ==> url == ErrorUrl(origin, e.reason))
      && (e.NothingMatched? ==> url == origin + "/")
    // a query with no non-empty code or access token always lands on the root
    ensures var ps := SP.ParseUrlEncoded(query, queryDecode);
      !Truthy(SP.Get(ps, "code")) && !Truthy(SP.Get(ps, "access_token")) ==> url == origin + "/"
  {
    Target(origin, Decide(origin, SP.ParseUrlEncoded(query, queryDecode), service, parses).ending)
  }

  // ---------------------------------------------------------------------
  // Properties
  // ---------------------------------------------------------------------

  /** The code exchange's three answers: an error object, an exception and
      a user each end the request at once, with their own target; a user
      whose target does not parse ends like an exception, because the
      redirect throws inside the same `try`. */
  lemma CodeExchangeOutcomes(origin: string, ps: SP.Params, service: Call -> Reply, parses: string -> bool)
    requires Truthy(SP.Get(ps, "code"))
    ensures var reply := service(ExchangeCode(SP.Get(ps, "code").value));
      var d := Decide(origin, ps, service, parses);
      && (reply.Failed? ==> Target(origin, d.ending) == ErrorUrl(origin, ExchangeFailed))
      && (reply.Threw? ==> Target(origin, d.ending) == ErrorUrl(origin, ExchangeException))
      && (reply.User? && parses(origin + Next(ps)) ==> Target(origin, d.ending) == origin + Next(ps))
      && (reply.User? && !parses(origin + Next(ps)) ==> Target(origin, d.ending) == ErrorUrl(origin, ExchangeException))
      && (!reply.Neither? ==> |d.calls| == 1)
  {
  }

  /** An exchange that returns neither error nor user falls through: the
      request continues exactly as if it had carried no code. */
  lemma CodeFallsThrough(origin: string, ps: SP.Params, service: Call -> Reply, parses: string -> bool)
    requires Truthy(SP.Get(ps, "code"))
    requires service(ExchangeCode(SP.Get(ps, "code").value)).Neither?
    ensures Decide(origin, ps, service, parses).ending == TokenPairStage(origin, ps, service, parses).ending
    ensures Decide(origin, ps, service, parses).calls ==
              [ExchangeCode(SP.Get(ps, "code").value)] + TokenPairStage(origin, ps, service, parses).calls
  {
  }

  /** The token pair's answers: an error object and an exception go to their
      own error pages, a user goes to `next` when that target parses and to
      the exception page when it does not, and neither goes to the root. */
  lemma TokenPairOutcomes(origin: string, ps: SP.Params, service: Call -> Reply, parses: string -> bool)
    requires Truthy(SP.Get(ps, "access_token"))
    ensures var reply := service(SetSession(SP.Get(ps, "access_token").value, SP.Get(ps, "refresh_token")));
      var e := TokenPairStage(origin, ps, service, parses).ending;
      && (reply.Failed? ==> Target(origin, e) == ErrorUrl(origin, SetSessionFailed))
      && (reply.Threw? ==> Target(origin, e) == ErrorUrl(origin, SetSessionException))
      && (reply.User? && parses(origin + Next(ps)) ==> Target(origin, e) == origin + Next(ps))
      && (reply.User? && !parses(origin + Next(ps)) ==> Target(origin, e) == ErrorUrl(origin, SetSessionException))
      && (reply.Neither? ==> Target(origin, e) == origin + "/")
  {
    var reply := service(SetSession(SP.Get(ps, "access_token").value, SP.Get(ps, "refresh_token")));
    var e := TokenPairStage(origin, ps, service, parses).ending;
    match reply
    case Failed(_) => assert e == Rejected(SetSessionFailed);
    case Threw(_) => assert e == Rejected(SetSessionException);
    case User(_) =>
      if parses(origin + Next(ps)) {
        assert e == Authenticated(Next(ps));
      } else {
        assert e == Rejected(SetSessionException);
      }
    case Neither => assert e == NothingMatched;
  }

  /** A query with neither a non-empty `code` nor a non-empty `access_token`
      (one carrying only `token_hash` and `type`, say) makes no call and
      redirects to the root. */
  lemma NoMatchGoesToRoot(origin: string, ps: SP.Params, service: Call -> Reply, parses: string -> bool)
    requires !Truthy(SP.Get(ps, "code")) && !Truthy(SP.Get(ps, "access_token"))
    ensures Decide(origin, ps, service, parses) == Response([], NothingMatched)
    ensures Target(origin, Decide(origin, ps, service, parses).ending) == origin + "/"
  {
  }

  /** An empty `next` is kept: success then redirects to the bare origin. */
  lemma EmptyNextKept(origin: string, ps: SP.Params, service: Call -> Reply, parses: string -> bool)
    requires SP.Get(ps, "next") == Some("")
    requires Decide(origin, ps, service, parses).ending.Authenticated?
    ensures Target(origin, Decide(origin, ps, service, parses).ending) == origin
  {
  }
}

=== FILE: callback_versions.dfy ===
/** The client page and the server route side by side, on a link that
    carries its parameters in the query string only (no fragment). Both
    then see the same values; they still differ on a one-time-token link,
    which only the page verifies, and on an empty `next`, which the page
    replaces by its landing page and the route keeps. */
module CallbackVersions {
  import opened Wrappers
  import SP = SearchParams
  import opened Session
  import CallbackPage
  import CallbackRoute

  /** The location the page sees for a link whose query component is
      `query` and whose fragment is empty. */
  function QueryOnlyLocation(pathname: string, query: string): (loc: CallbackPage.PageLocation)
    ensures loc.hash == "" && loc.pathname == pathname
    ensures |loc.search| == |query| + 1 && loc.search[0] == '?' && loc.search[1..] == query
  {
    CallbackPage.PageLocation(pathname, "?" + query, "")
  }

  /** Without a fragment the page's merged map reads exactly like the
      route's parsed query. */
  lemma SameValues(pathname: string, query: string, decode: string -> Result<string, string>, queryDecode: string -> string)
    ensures var r := CallbackPage.CollectParams(QueryOnlyLocation(pathname, query), decode, queryDecode);
      && r.Success?
      && forall k :: SP.Get(r.value, k) == SP.Get(SP.ParseUrlEncoded(query, queryDecode), k)
  {
    var loc := QueryOnlyLocation(pathname, query);
    assert CallbackPage.FragmentParams(loc, decode) == Success([]);
    assert CallbackPage.QueryParams(loc, queryDecode) == SP.ParseUrlEncoded(query, queryDecode);
  }

  /** The page's run on a query-only link is the dispatch of the flow its
      merged map selects, and that map reads like the route's query. */
  lemma PageSees(pathname: string, query: string, decode: string -> Result<string, string>, queryDecode: string -> string,
                service: Call -> Reply)
    returns (merged: SP.Params)
    ensures CallbackPage.CollectParams(QueryOnlyLocation(pathname, query), decode, queryDecode) == Success(merged)
    ensures forall k :: SP.Get(merged, k) == SP.Get(SP.ParseUrlEncoded(query, queryDecode), k)
    ensures CallbackPage.Run(QueryOnlyLocation(pathname, query), decode, queryDecode, service) ==
              CallbackPage.Dispatch(CallbackPage.Classify(merged), pathname, service)
  {
    SameValues(pathname, query, decode, queryDecode);
    merged := CallbackPage.CollectParams(QueryOnlyLocation(pathname, query), decode, queryDecode).value;
  }

  /** The route's decision depends on its parameters only through the
      values of `code`, `access_token`, `refresh_token` and `next`. */
  lemma RouteReadsValues(origin: string, ps: SP.Params, ps': SP.Params, service: Call -> Reply, parses: string -> bool)
    requires forall k :: SP.Get(ps, k) == SP.Get(ps', k)
    ensures CallbackRoute.Decide(origin, ps, service, parses) == CallbackRoute.Decide(origin, ps', service, parses)
  {
    assert SP.Get(ps, "code") == SP.Get(ps', "code");
    assert SP.Get(ps, "access_token") == SP.Get(ps', "access_token");
    assert SP.Get(ps, "refresh_token") == SP.Get(ps', "refresh_token");
    assert SP.Get(ps, "next") == SP.Get(ps', "next");
  }

  /** On the page, a map reading like `ps`, which has a token hash and a
      type but no code and no access token, makes the one-time-token
      verification its call. */
  lemma PageVerifiesOtp(ps: SP.Params, merged: SP.Params, pathname: string, service: Call -> Reply)
    requires forall k :: SP.Get(merged, k) == SP.Get(ps, k)
    requires !Truthy(SP.Get(ps, "code")) && !Truthy(SP.Get(ps, "access_token"))
    requires Truthy(CallbackPage.TokenHash(ps)) && Truthy(SP.Get(ps, "type"))
    ensures var t := CallbackPage.Dispatch(CallbackPage.Classify(merged), pathname, service);
      |t| >= 2 && t[1].Called? && t[1].call.VerifyOtp?
  {
    assert SP.Get(merged, "token_hash") == SP.Get(ps, "token_hash");
    assert SP.Get(merged, "token") == SP.Get(ps, "token");
    assert SP.Get(merged, "code") == SP.Get(ps, "code");
    assert SP.Get(merged, "access_token") == SP.Get(ps, "access_token");
    assert SP.Get(merged, "type") == SP.Get(ps, "type");
    assert CallbackPage.Classify(merged).OtpFlow?;
  }

  /** On the page, a map reading like `ps`, whose code exchange succeeds and
      whose `next` is empty, lands on the default page. */
  lemma PageLandsByDefault(ps: SP.Params, merged: SP.Params, pathname: string, service: Call -> Reply)
    requires forall k :: SP.Get(merged, k) == SP.Get(ps, k)
    requires Truthy(SP.Get(ps, "code")) && SP.Get(ps, "next") == Some("")
    requires service(ExchangeCode(SP.Get(ps, "code").value)).User?
    ensures var t := CallbackPage.Dispatch(CallbackPage.Classify(merged), pathname, service);
      t[|t| - 1] == CallbackPage.Navigated(CallbackPage.DefaultLanding)
  {
    assert SP.Get(merged, "code") == SP.Get(ps, "code");
    assert SP.Get(merged, "next") == SP.Get(ps, "next");
    assert CallbackPage.Classify(merged) == CallbackPage.CodeFlow(SP.Get(ps, "code").value, CallbackPage.DefaultLanding);
  }

  /** A one-time-token link (a token hash and a type, but no code and no
      access token) is verified by the page, while the route makes no call
      and sends the browser to the site root. */
  lemma OtpLinkOnlyOnPage(origin: string, pathname: string, query: string, decode: string -> Result<string, string>,
                          queryDecode: string -> string, service: Call -> Reply, parses: string -> bool)
    requires var ps := SP.ParseUrlEncoded(query, queryDecode);
      && !Truthy(SP.Get(ps, "code")) && !Truthy(SP.Get(ps, "access_token"))
      && Truthy(CallbackPage.TokenHash(ps)) && Truthy(SP.Get(ps, "type"))
    ensures var t := CallbackPage.Run(QueryOnlyLocation(pathname, query), decode, queryDecode, service);
      |t| >= 2 && t[1].Called? && t[1].call.VerifyOtp?
    ensures CallbackRoute.Decide(origin, SP.ParseUrlEncoded(query, queryDecode), service, parses).calls == []
    ensures CallbackRoute.Handle(origin, query, queryDecode, service, parses) == origin + "/"
  {
    var ps := SP.ParseUrlEncoded(query, queryDecode);
    var merged := PageSees(pathname, query, decode, queryDecode, service);
    PageVerifiesOtp(ps, merged, pathname, service);
    CallbackRoute.NoMatchGoesToRoot(origin, ps, service, parses);
  }

  /** A code link whose `next` is present but empty: after a successful
      exchange the page lands on its default page, the route on the bare
      origin (which, being the origin of a parsed URL, parses). */
  lemma EmptyNextDiverges(origin: string, pathname: string, query: string, decode: string -> Result<string, string>,
                          queryDecode: string -> string, service: Call -> Reply, parses: string -> bool)
    requires parses(origin)
    requires var ps := SP.ParseUrlEncoded(query, queryDecode);
      && Truthy(SP.Get(ps, "code")) && SP.Get(ps, "next") == Some("")
      && service(ExchangeCode(SP.Get(ps, "code").value)).User?
    ensures var t := CallbackPage.Run(QueryOnlyLocation(pathname, query), decode, queryDecode, service);
      t[|t| - 1] == CallbackPage.Navigated(CallbackPage.DefaultLanding)
    ensures CallbackRoute.Handle(origin, query, queryDecode, service, parses) == origin
  {
    var ps := SP.ParseUrlEncoded(query, queryDecode);
    var merged := PageSees(pathname, query, decode, queryDecode, service);
    PageLandsByDefault(ps, merged, pathname, service);
    RouteLandsOnOrigin(origin, ps, service, parses);
  }

  /** The route's half: a user after the exchange, with an empty `next`,
      redirects to the bare origin. */
  lemma RouteLandsOnOrigin(origin: string, ps: SP.Params, service: Call -> Reply, parses: string -> bool)
    requires parses(origin)
    requires Truthy(SP.Get(ps, "code")) && SP.Get(ps, "next") == Some("")
    requires service(ExchangeCode(SP.Get(ps, "code").value)).User?
    ensures CallbackRoute.Target(origin, CallbackRoute.Decide(origin, ps, service, parses).ending) == origin
  {
    assert origin + CallbackRoute.Next(ps) == origin;
    assert CallbackRoute.Decide(origin, ps, service, parses).ending == CallbackRoute.Authenticated("");
    CallbackRoute.EmptyNextKept(origin, ps, service, parses);
  }
}

=== FILE: clerk_auth.dfy ===
/** The profile helpers of `lib/clerk-auth.ts`: building a new profile row
    from the identity provider's user, reading and updating a profile by its
    provider id with `.single()` semantics, and attaching scans and payments
    to the profile's own id. The database is a list of rows; what an insert
    or a query returns beyond what these helpers decide is left to it. */
module ClerkAuth {
  import opened Wrappers
  import Hex

  /** The fields of the identity provider's user object that are read.
      Optional fields are `None` when missing; an empty string or zero is
      kept as given, since the `||` fallbacks treat them as missing. */
  datatype ClerkUser = ClerkUser(
    id: string,
    username: Option<string>,
    primaryEmail: Option<string>,
    gender: Option<string>,
    age: Option<int>)

  /** A row of the profiles table; `id` is the table's own key. */
  datatype ProfileRow = ProfileRow(
    id: string,
    clerkId: string,
    username: string,
    email: string,
    gender: Option<string>,
    age: Option<int>,
    points: int,
    token: string)

  type Profiles = seq<ProfileRow>

  const StartingPoints: int := 1000
  const TokenBytes: int := 32
  const UsernamePrefix: string := "user_"
  const UsernameIdChars: int := 8
  const ProfileNotFound: string := "Profile not found"

  // ---------------------------------------------------------------------
  // A new profile
  // ---------------------------------------------------------------------

  /** `id.slice(0, n)`: the first `n` characters, or all of a shorter id. */
  function Slice(s: string, n: nat): (r: string)
    ensures |r| == if |s| < n then |s| else n
    ensures r <= s
  {
    if |s| < n then s else s[..n]
  }

  /** `generateToken` on the given random bytes. */
  function GenerateToken(random: seq<Hex.byte>): (t: string)
    requires |random| == TokenBytes
    ensures |t| == 2 * TokenBytes
    ensures forall i :: 0 <= i < |t| ==> t[i] in Hex.Digits
    ensures Hex.Decode(t) == Some(random)
  {
    Hex.DecodeEncode(random);
    Hex.Encode(random)
  }

  /** The row `createUserProfile` inserts (without the table's own `id`,
      which the database assigns and is passed in as `newId`). */
  function CreateUserProfile(u: ClerkUser, random: seq<Hex.byte>, newId: string): (p: ProfileRow)
    requires |random| == TokenBytes
    ensures p.id == newId && p.clerkId == u.id
    ensures Truthy(u.username) ==> p.username == u.username.value
    ensures !Truthy(u.username) ==> p.username == UsernamePrefix + Slice(u.id, UsernameIdChars)
    ensures p.email == (if Truthy(u.primaryEmail) then u.primaryEmail.value else "")
    ensures p.gender == (if Truthy(u.gender) then u.gender else None)
    ensures p.age == (if u.age.Some? && u.age.value != 0 then u.age else None)
    ensures p.points == StartingPoints
    ensures Hex.Decode(p.token) == Some(random)
  {
    ProfileRow(
      newId,
      u.id,
      TruthyOr(u.username, UsernamePrefix + Slice(u.id, UsernameIdChars)),
      TruthyOr(u.primaryEmail, ""),
      if Truthy(u.gender) then u.gender else None,
      if u.age.Some? && u.age.value != 0 then u.age else None,
      StartingPoints,
      GenerateToken(random))
  }

  /** Two new profiles built from different random bytes never share a token. */
  lemma TokensDifferWithBytes(u: ClerkUser, v: ClerkUser, a: seq<Hex.byte>, b: seq<Hex.byte>, idA: string, idB: string)
    requires |a| == TokenBytes && |b| == TokenBytes && a != b
    ensures CreateUserProfile(u, a, idA).token != CreateUserProfile(v, b, idB).token
  {
  }

  // ---------------------------------------------------------------------
  // Reading by provider id
  // ---------------------------------------------------------------------

  /** The number of rows with this provider id. */
  function CountClerk(rows: Profiles, clerkId: string): (n: nat)
    ensures n <= |rows|
    ensures n == 0 <==> forall i :: 0 <= i < |rows| ==> rows[i].clerkId != clerkId
    decreases |rows|
  {
    if |rows| == 0 then 0
    else
      var rest := CountClerk(rows[1..], clerkId);
      assert forall i :: 1 <= i < |rows| ==> rows[i] == rows[1..][i - 1];
      (if rows[0].clerkId == clerkId then 1 else 0) + rest
  }

  /** The first row with this provider id. */
  function FirstClerk(rows: Profiles, clerkId: string): (i: nat)
    requires CountClerk(rows, clerkId) > 0
    ensures i < |rows| && rows[i].clerkId == clerkId
    ensures forall j :: 0 <= j < i ==> rows[j].clerkId != clerkId
    decreases |rows|
  {
    if rows[0].clerkId == clerkId then 0
    else 1 + FirstClerk(rows[1..], clerkId)
  }

  /** `.eq("clerk_id", id).single()`: the row when exactly one matches, and
      no data when none or several do. */
  function Single(rows: Profiles, clerkId: string): (r: Option<ProfileRow>)
    ensures r.Some? <==> CountClerk(rows, clerkId) == 1
    ensures r.Some? ==> r.value in rows && r.value.clerkId == clerkId
  {
    if CountClerk(rows, clerkId) == 1 then Some(rows[FirstClerk(rows, clerkId)]) else None
  }

  /** With exactly one matching row, that row is the only one carrying the id. */
  lemma {:induction false} SingleIsUnique(rows: Profiles, clerkId: string)
    requires CountClerk(rows, clerkId) == 1
    ensures forall j :: 0 <= j < |rows| && rows[j].clerkId == clerkId ==> j == FirstClerk(rows, clerkId)
    decreases |rows|
  {
    if rows[0].clerkId != clerkId {
      SingleIsUnique(rows[1..], clerkId);
      forall j | 0 < j < |rows| && rows[j].clerkId == clerkId ensures j == FirstClerk(rows, clerkId) {
        assert rows[1..][j - 1] == rows[j];
      }
    } else {
      assert CountClerk(rows[1..], clerkId) == 0;
      forall j | 0 < j < |rows| ensures rows[j].clerkId != clerkId {
        assert rows[1..][j - 1] == rows[j];
      }
    }
  }

  /** `getUserProfile`. */
  function GetUserProfile(rows: Profiles, clerkId: string): (r: Option<ProfileRow>)
    ensures r.Some? ==> r.value.clerkId == clerkId && r.value in rows
    ensures r.None? <==> CountClerk(rows, clerkId) != 1
  {
    Single(rows, clerkId)
  }

  /** A profile inserted for a provider id not yet in the table is the one
      `getUserProfile` then finds. */
  lemma {:induction false} CreatedProfileIsFound(rows: Profiles, u: ClerkUser, random: seq<Hex.byte>, newId: string)
    requires |random| == TokenBytes
    requires CountClerk(rows, u.id) == 0
    ensures GetUserProfile(rows + [CreateUserProfile(u, random, newId)], u.id) == Some(CreateUserProfile(u, random, newId))
  {
    var p := CreateUserProfile(u, random, newId);
    CountAppend(rows, p, u.id);
    SingleIsUnique(rows + [p], u.id);
    assert (rows + [p])[|rows|] == p;
  }

  /** Counting over a table with one more row at the end. */
  lemma {:induction false} CountAppend(rows: Profiles, p: ProfileRow, clerkId: string)
    ensures CountClerk(rows + [p], clerkId) == CountClerk(rows, clerkId) + (if p.clerkId == clerkId then 1 else 0)
    decreases |rows|
  {
    if |rows| > 0 {
      assert (rows + [p])[1..] == rows[1..] + [p];
      CountAppend(rows[1..], p, clerkId);
    }
  }

  /** `updateUserPoints`: `.update().eq().select().single()` asks for a
      single row back, so the update stands only when exactly one row has
      the provider id; otherwise the request fails and the update is rolled
      back, leaving the table as it was. */
  function UpdateUserPoints(rows: Profiles, clerkId: string, newPoints: int): (r: (Profiles, Option<ProfileRow>))
    ensures |r.0| == |rows|
    ensures CountClerk(rows, clerkId) == 1 ==> forall i :: 0 <= i < |rows| ==>
      r.0[i] == (if rows[i].clerkId == clerkId then rows[i].(points := newPoints) else rows[i])
    ensures CountClerk(rows, clerkId) != 1 ==> r.0 == rows
    ensures r.1.Some? ==> r.1.value.points == newPoints && r.1.value.clerkId == clerkId
    ensures r.1.Some? <==> CountClerk(rows, clerkId) == 1
    // the answer is the matching row itself, as updated
    ensures r.1.Some? ==> r.1.value in r.0
    ensures r.1.Some? ==>
      exists i :: 0 <= i < |rows| && rows[i].clerkId == clerkId && r.1.value == rows[i].(points := newPoints)
  {
    if CountClerk(rows, clerkId) == 1 then
      var updated := seq(|rows|, i requires 0 <= i < |rows| => if rows[i].clerkId == clerkId then rows[i].(points := newPoints) else rows[i]);
      SameClerkIds(rows, updated, clerkId);
      var answer := Single(updated, clerkId);
      var j :| 0 <= j < |updated| && updated[j] == answer.value;
      assert rows[j].clerkId == clerkId && answer.value == rows[j].(points := newPoints);
      (updated, answer)
    else (rows, None)
  }

  /** Two tables with the same provider id at every position count alike. */
  lemma {:induction false} SameClerkIds(a: Profiles, b: Profiles, clerkId: string)
    requires |a| == |b| && forall i :: 0 <= i < |a| ==> a[i].clerkId == b[i].clerkId
    ensures CountClerk(a, clerkId) == CountClerk(b, clerkId)
    decreases |a|
  {
    if |a| > 0 {
      SameClerkIds(a[1..], b[1..], clerkId);
    }
  }

  // ---------------------------------------------------------------------
  // Scans and payments
  // ---------------------------------------------------------------------

  /** A scan as the caller supplies it; `userId` is the provider id. */
  datatype ScanData = ScanData(
    userId: string,
    imageUrl: Option<string>,
    result: string,
    confidence: int,
    treatment: Option<string>,
    location: Option<string>,
    pointsUsed: Option<int>)

  /** A payment as the caller supplies it; `userId` is the provider id. */
  datatype PaymentData = PaymentData(userId: string, amount: real, pointsPurchased: int, paymentMethod: string)

  /** What a write helper does: refuse with an error message, or hand one
      row to the database's insert. */
  datatype Write<T> = Refused(message: string) | Insert(row: T)

  /** The guard both insert helpers share: look the profile up by provider
      id and, when exactly one is found, hand the row built for its key to
      the insert. */
  function ForProfile<T>(rows: Profiles, clerkId: string, rowFor: string -> T): (w: Write<T>)
    ensures w.Refused? <==> Single(rows, clerkId).None?
    ensures w.Refused? ==> w.message == ProfileNotFound
    ensures w.Insert? ==> w.row == rowFor(Single(rows, clerkId).value.id)
  {
    match Single(rows, clerkId)
    case None => Refused(ProfileNotFound)
    case Some(p) => Insert(rowFor(p.id))
  }

  /** `createScan`. */
  function CreateScan(rows: Profiles, data: ScanData): (w: Write<ScanData>)
    ensures w.Refused? <==> Single(rows, data.userId).None?
    ensures w.Refused? ==> w.message == ProfileNotFound
    // the inserted row is the caller's with the provider id swapped for the profile's key
    ensures w.Insert? ==> w.row == data.(userId := Single(rows, data.userId).value.id)
  {
    ForProfile(rows, data.userId, key => data.(userId := key))
  }

  /** `createPayment`. */
  function CreatePayment(rows: Profiles, data: PaymentData): (w: Write<PaymentData>)
    ensures w.Refused? <==> Single(rows, data.userId).None?
    ensures w.Refused? ==> w.message == ProfileNotFound
    ensures w.Insert? ==> w.row == data.(userId := Single(rows, data.userId).value.id)
  {
    ForProfile(rows, data.userId, key => data.(userId := key))
  }

  /** A stored scan row, keyed by the profile's own id. */
  datatype ScanRow = ScanRow(userId: string, data: ScanData)

  /** The `{ data, error }` a scans read answers: `data` is `None` where the
      database answers `null`. */
  datatype ScansAnswer = ScansAnswer(data: Option<seq<ScanRow>>, error: Option<string>)

  /** `getUserScans`. `scansOf` is the scans query for a profile key, with
      its newest-first ordering, answering rows or an error as the database
      does; its answer is passed on unchanged. */
  function GetUserScans(rows: Profiles, clerkId: string, scansOf: string -> ScansAnswer): (r: ScansAnswer)
    ensures Single(rows, clerkId).None? ==> r == ScansAnswer(Some([]), Some(ProfileNotFound))
    ensures Single(rows, clerkId).Some? ==> r == scansOf(Single(rows, clerkId).value.id)
  {
    match Single(rows, clerkId)
    case None => ScansAnswer(Some([]), Some(ProfileNotFound))
    case Some(p) => scansOf(p.id)
  }

  /** The write helpers and the read helper agree on when a profile is
      missing, and all address the same profile key. */
  lemma HelpersAgree(rows: Profiles, s: ScanData, pay: PaymentData, scansOf: string -> ScansAnswer)
    requires s.userId == pay.userId
    ensures CreateScan(rows, s).Refused? <==> CreatePayment(rows, pay).Refused?
    ensures CreateScan(rows, s).Refused? ==>
      GetUserScans(rows, s.userId, scansOf) == ScansAnswer(Some([]), Some(CreateScan(rows, s).message))
    ensures CreateScan(rows, s).Insert? ==>
      && CreateScan(rows, s).row.userId == CreatePayment(rows, pay).row.userId
      && GetUserScans(rows, s.userId, scansOf) == scansOf(CreateScan(rows, s).row.userId)
  {
  }
}

=== FILE: hex.dfy ===
/** Lower-case hexadecimal text for bytes, as the profile token generator
    builds it: each byte's `toString(16)` padded to two digits with `padStart(2, '0')`,
    all joined with no separator. */
module Hex {
  import opened Wrappers

  newtype byte = x: int | 0 <= x < 256

  const Digits: string := "0123456789abcdef"

  /** The digit for a value below sixteen. */
  function Digit(n: int): (c: char)
    requires 0 <= n < 16
    ensures c in Digits
  {
    Digits[n]
  }

  /** The value of a lower-case hexadecimal digit. */
  function DigitValue(c: char): (r: Option<int>)
    ensures r.Some? ==> 0 <= r.value < 16
  {
    if '0' <= c <= '9' then Some(c as int - '0' as int)
    else if 'a' <= c <= 'f' then Some(c as int - 'a' as int + 10)
    else None
  }

  /** `DigitValue` reads exactly the digit table, as its inverse. */
  lemma DigitValueInverse(c: char)
    ensures DigitValue(c).Some? <==> c in Digits
    ensures DigitValue(c).Some? ==> Digit(DigitValue(c).value) == c
  {
    if c in Digits {
      var i :| 0 <= i < |Digits| && Digits[i] == c;
      DigitRoundTrip(i);
    }
  }

  /** `Number.prototype.toString(16)` on a byte: no leading zeros, so one
      digit below sixteen and two from sixteen on. */
  function ToString16(b: byte): (s: string)
    ensures |s| == (if b < 16 then 1 else 2)
    ensures b >= 16 ==> s[0] != '0'
    // read back as base-16 digits, the text is worth `b`
    ensures b < 16 ==> DigitValue(s[0]) == Some(b as int)
    ensures b >= 16 ==>
      && DigitValue(s[0]).Some? && DigitValue(s[1]).Some?
      && DigitValue(s[0]).value * 16 + DigitValue(s[1]).value == b as int
  {
    if b < 16 then
      DigitRoundTrip(b as int);
      [Digit(b as int)]
    else
      DigitRoundTrip(b as int / 16);
      DigitRoundTrip(b as int % 16);
      [Digit(b as int / 16), Digit(b as int % 16)]
  }

  /** `String.prototype.padStart(width, fill)`. */
  function PadStart(s: string, width: nat, fill: char): (r: string)
    ensures |r| == if |s| >= width then |s| else width
    ensures r[|r| - |s|..] == s
    ensures forall i :: 0 <= i < |r| - |s| ==> r[i] == fill
  {
    if |s| >= width then s else seq(width - |s|, _ => fill) + s
  }

  /** The digit table read back: every digit's value is its position. */
  lemma DigitRoundTrip(n: int)
    requires 0 <= n < 16
    ensures DigitValue(Digit(n)) == Some(n)
  {
  }

  /** One byte as exactly two digits, high digit first: the unpadded text
      gains a leading `0` only when it had one digit. */
  function EncodeByte(b: byte): (s: string)
    ensures s == [Digit(b as int / 16), Digit(b as int % 16)]
  {
    assert b < 16 ==> b as int / 16 == 0 && b as int % 16 == b as int;
    PadStart(ToString16(b), 2, '0')
  }

  /** The bytes' digits, two per byte, in order. */
  function Encode(bs: seq<byte>): (s: string)
    ensures |s| == 2 * |bs|
    ensures forall i :: 0 <= i < |s| ==> s[i] in Digits
    decreases |bs|
  {
    if |bs| == 0 then []
    else
      var e := EncodeByte(bs[0]);
      var rest := Encode(bs[1..]);
      assert e[0] in Digits && e[1] in Digits;
      assert forall i :: 0 <= i < |e + rest| ==> (e + rest)[i] == if i < 2 then e[i] else rest[i - 2];
      e + rest
  }

  /** Reads pairs of digits back into bytes; `None` for odd length or a
      character that is not a lower-case digit. */
  function Decode(s: string): Option<seq<byte>>
    decreases |s|
  {
    if |s| < 2 then (if |s| == 0 then Some([]) else None)
    else
      var hi := DigitValue(s[0]);
      var lo := DigitValue(s[1]);
      var rest := Decode(s[2..]);
      if hi.None? || lo.None? || rest.None? then None
      else Some([(hi.value * 16 + lo.value) as byte] + rest.value)
  }

  /** Decoding undoes encoding, so distinct byte strings give distinct tokens. */
  lemma {:induction false} DecodeEncode(bs: seq<byte>)
    ensures Decode(Encode(bs)) == Some(bs)
    decreases |bs|
  {
    if |bs| > 0 {
      var s := Encode(bs);
      var hi := bs[0] as int / 16;
      var lo := bs[0] as int % 16;
      EncodeFront(bs);
      DigitRoundTrip(hi);
      DigitRoundTrip(lo);
      DecodeEncode(bs[1..]);
      DecodeStep(s, hi, lo, bs[1..]);
      assert (hi * 16 + lo) as byte == bs[0];
      assert bs == [bs[0]] + bs[1..];
    }
  }

  /** The encoding starts with the first byte's two digits, followed by
      the encoding of the rest. */
  lemma EncodeFront(bs: seq<byte>)
    requires |bs| > 0
    ensures |Encode(bs)| >= 2 && Encode(bs)[2..] == Encode(bs[1..])
    ensures Encode(bs)[0] == Digit(bs[0] as int / 16) && Encode(bs)[1] == Digit(bs[0] as int % 16)
  {
    var e := EncodeByte(bs[0]);
    assert Encode(bs) == e + Encode(bs[1..]);
  }

  /** Decoding a text that starts with two digits. */
  lemma DecodeStep(s: string, hi: int, lo: int, rest: seq<byte>)
    requires |s| >= 2 && DigitValue(s[0]) == Some(hi) && DigitValue(s[1]) == Some(lo)
    requires Decode(s[2..]) == Some(rest)
    ensures Decode(s) == Some([(hi * 16 + lo) as byte] + rest)
  {
  }

  /** Encoding is one-to-one. */
  lemma EncodeInjective(a: seq<byte>, b: seq<byte>)
    ensures Encode(a) == Encode(b) ==> a == b
  {
    DecodeEncode(a);
    DecodeEncode(b);
  }
}

=== FILE: login_form.dfy ===
/** The sign-in form (`components/login-form.tsx`): its two field checks, the
    sign-in call, and the mapping from a stored profile to the wizard's user
    record. A successful sign-in hands that record to the wizard and jumps
    straight to the scanning step. */
module LoginForm {
  import opened Wrappers
  import Text
  import opened Session
  import Wizard

  /** The form's fields as typed. */
  datatype FormData = FormData(email: string, password: string)

  /** The fields an error can be attached to. */
  datatype Field = Email | Password

  type Errors = map<Field, string>

  const EmailRequiredMessage: string := "Email is required"
  const EmailFormatMessage: string := "Please enter a valid email"
  const PasswordRequiredMessage: string := "Password is required"
  const UnexpectedMessage: string := "An unexpected error occurred"
  const FallbackGender: string := "prefer-not-to-say"
  const FallbackAge: int := 30

  // ---------------------------------------------------------------------
  // Email: /\S+@\S+\.\S+/ (not anchored)
  // ---------------------------------------------------------------------

  /** `s[from..to]` is a non-empty run of non-whitespace characters (`\S+`). */
  ghost predicate NonSpaceRun(s: string, from: int, to: int) {
    0 <= from < to <= |s| && forall k :: from <= k < to ==> !Text.IsSpace(s[k])
  }

  /** The regular expression matches `s[p..q]` with its `@` at `at` and its
      `.` at `dot`. */
  ghost predicate LooseMatch(s: string, p: int, at: int, dot: int, q: int) {
    && NonSpaceRun(s, p, at) && NonSpaceRun(s, at + 1, dot) && NonSpaceRun(s, dot + 1, q)
    && s[at] == '@' && s[dot] == '.'
  }

  /** `RegExp.prototype.test`: some substring matches. */
  ghost predicate LoosePattern(s: string) {
    exists p, at, dot, q :: LooseMatch(s, p, at, dot, q)
  }

  /** A `.` at `dot` followed by a non-whitespace character, with no
      whitespace in `s[j..dot]`. */
  ghost predicate DotAt(s: string, j: int, dot: int) {
    0 <= j <= dot && dot + 1 < |s| && s[dot] == '.' && !Text.IsSpace(s[dot + 1])
    && forall k :: j <= k < dot ==> !Text.IsSpace(s[k])
  }

  /** A `.` at `j` or later that ends a non-whitespace run begun before `j`
      and is followed by a non-whitespace character. */
  function DotFrom(s: string, j: nat): (b: bool)
    requires j <= |s|
    ensures b <==> exists dot :: DotAt(s, j, dot)
    decreases |s| - j
  {
    if j + 1 >= |s| || Text.IsSpace(s[j]) then
      NoDotPast(s, j);
      false
    else if s[j] == '.' && !Text.IsSpace(s[j + 1]) then
      assert DotAt(s, j, j);
      true
    else
      var b := DotFrom(s, j + 1);
      DotStep(s, j);
      assert b ==> exists dot :: DotAt(s, j, dot) by {
        if b { var dot :| DotAt(s, j + 1, dot); assert DotAt(s, j, dot); }
      }
      b
  }

  /** No `.` qualifies once the run is broken at `j` or the text ends. */
  lemma NoDotPast(s: string, j: nat)
    requires j <= |s| && (j + 1 >= |s| || Text.IsSpace(s[j]))
    ensures forall dot :: !DotAt(s, j, dot)
  {
    forall dot | 0 <= dot ensures !DotAt(s, j, dot) {
      if j < dot && dot + 1 < |s| {
        assert Text.IsSpace(s[j]);
      }
    }
  }

  /** Past a non-whitespace character that is not a qualifying `.`, the
      search continues one position later. */
  lemma DotStep(s: string, j: nat)
    requires j + 1 < |s| && !Text.IsSpace(s[j]) && !(s[j] == '.' && !Text.IsSpace(s[j + 1]))
    ensures forall dot :: DotAt(s, j, dot) <==> DotAt(s, j + 1, dot)
  {
  }

  /** An `@` at `i` or later with a non-whitespace character before it and a
      `.`-run after it as `DotFrom` describes. */
  function AtFrom(s: string, i: nat): (b: bool)
    requires i <= |s|
    ensures b <==> exists at :: i <= at && AtWorks(s, at)
    decreases |s| - i
  {
    if i == |s| then false
    else AtWorks(s, i) || AtFrom(s, i + 1)
  }

  /** The `@` at `at` starts a match: something before it, and after it a
      non-whitespace run ending in `.` followed by something. */
  predicate AtWorks(s: string, at: int) {
    0 < at && at + 1 < |s| && s[at] == '@' && !Text.IsSpace(s[at - 1]) && !Text.IsSpace(s[at + 1]) && DotFrom(s, at + 2)
  }

  /** The scan and the regular expression accept the same strings. */
  lemma AtWorksIffMatch(s: string)
    ensures (exists at :: 0 <= at && AtWorks(s, at)) <==> LoosePattern(s)
  {
    if exists at :: 0 <= at && AtWorks(s, at) {
      var at :| 0 <= at && AtWorks(s, at);
      var dot :| DotAt(s, at + 2, dot);
      assert LooseMatch(s, at - 1, at, dot, dot + 2);
    }
    if LoosePattern(s) {
      var p, at, dot, q :| LooseMatch(s, p, at, dot, q);
      assert DotAt(s, at + 2, dot);
      assert AtWorks(s, at);
    }
  }

  /** The format test on the email field. */
  function LooseEmail(s: string): (ok: bool)
    ensures ok <==> LoosePattern(s)
  {
    AtWorksIffMatch(s);
    AtFrom(s, 0)
  }

  // ---------------------------------------------------------------------
  // The form
  // ---------------------------------------------------------------------

  /** `validateForm`'s error map. */
  function ValidateForm(f: FormData): (errors: Errors)
    // an empty email is reported as missing and never format-checked
    ensures f.email == "" ==> Email in errors && errors[Email] == EmailRequiredMessage
    ensures f.email != "" ==> (Email in errors <==> !LoosePattern(f.email))
    ensures f.email != "" && Email in errors ==> errors[Email] == EmailFormatMessage
    // the only password rule is that there is one
    ensures Password in errors <==> f.password == ""
    ensures Password in errors ==> errors[Password] == PasswordRequiredMessage
  {
    var e: Errors :=
      if f.email == "" then map[Email := EmailRequiredMessage]
      else if !LooseEmail(f.email) then map[Email := EmailFormatMessage]
      else map[];
    if f.password == "" then e[Password := PasswordRequiredMessage] else e
  }

  /** The form is valid exactly when the email matches and a password is given. */
  lemma FormValidIff(f: FormData)
    ensures ValidateForm(f) == map[] <==> LoosePattern(f.email) && f.password != ""
  {
    if f.email == "" {
      assert Email in ValidateForm(f);
      assert !LoosePattern(f.email);
    }
    if ValidateForm(f) != map[] {
      var k :| k in ValidateForm(f);
    }
  }

  // ---------------------------------------------------------------------
  // Signing in
  // ---------------------------------------------------------------------

  /** A stored profile row as the form reads it: `gender` is `""` when
      missing, `age` is `None` when missing. */
  datatype Profile = Profile(username: string, email: string, gender: string, age: Option<int>)

  /** The sign-in call. */
  datatype SignInRequest = SignInRequest(email: string, password: string)

  /** The form after a submission. */
  datatype Outcome =
    | Invalid(errors: Errors)
    | SignedIn(user: Wizard.UserData)
    | SignInFailed(general: string)
    | Stayed

  /** One submission: the sign-in call made, if any, the profile id looked
      up, if any, and the outcome. */
  datatype Submission = Submission(request: Option<SignInRequest>, profileLookup: Option<string>, outcome: Outcome)

  /** The wizard's user record for a stored profile; the password is the one
      just typed, a missing gender becomes "prefer-not-to-say", and a missing
      or zero age becomes 30 (`profile.age || 30`). */
  function ProfileToUserData(p: Profile, password: string): (u: Wizard.UserData)
    ensures u.username == p.username && u.email == p.email && u.password == password
    ensures u.gender == (if p.gender != "" then p.gender else FallbackGender)
    ensures p.age.Some? && p.age.value != 0 ==> u.age == p.age.value
    ensures p.age.None? || p.age.value == 0 ==> u.age == FallbackAge
  {
    var age := if p.age.Some? && p.age.value != 0 then p.age.value else FallbackAge;
    Wizard.UserData(p.username, p.email, password, TruthyOr(if p.gender == "" then None else Some(p.gender), FallbackGender), age)
  }

  /** `handleSubmit`. `signIn` answers the sign-in call; `lookup` is the
      profile table's `.single()` read by user id. */
  function Submit(f: FormData, signIn: SignInRequest -> Reply, lookup: string -> Option<Profile>): (s: Submission)
    // an invalid form makes no call
    ensures s.request.None? <==> ValidateForm(f) != map[]
    ensures s.request.None? ==> s.outcome == Invalid(ValidateForm(f)) && s.profileLookup.None?
    ensures s.request.Some? ==> s.request.value == SignInRequest(f.email, f.password)
    // a sign-in error shows its message and goes no further
    ensures s.request.Some? && signIn(s.request.value).Failed? ==>
              s.outcome == SignInFailed(signIn(s.request.value).error.message) && s.profileLookup.None?
    // the profile is looked up only for a returned user, by that user's id
    ensures s.profileLookup.Some? <==> s.request.Some? && signIn(s.request.value).User?
    ensures s.profileLookup.Some? ==> s.profileLookup.value == signIn(s.request.value).id
    // the form moves on only with both a user and a profile
    ensures s.outcome.SignedIn? <==> s.profileLookup.Some? && lookup(s.profileLookup.value).Some?
    ensures s.outcome.SignedIn? ==> s.outcome.user == ProfileToUserData(lookup(s.profileLookup.value).value, f.password)
    // an exception shows the fixed text; no user, or no profile, leaves the form as it was
    ensures s.request.Some? && signIn(s.request.value).Threw? ==>
              s.outcome == SignInFailed(UnexpectedMessage) && s.profileLookup.None?
    ensures s.request.Some? && signIn(s.request.value).Neither? ==> s.outcome == Stayed
    ensures s.profileLookup.Some? && lookup(s.profileLookup.value).None? ==> s.outcome == Stayed
  {
    var errors := ValidateForm(f);
    if errors != map[] then Submission(None, None, Invalid(errors))
    else
      var request := SignInRequest(f.email, f.password);
      match signIn(request)
      case Failed(e) => Submission(Some(request), None, SignInFailed(e.message))
      case Threw(_) => Submission(Some(request), None, SignInFailed(UnexpectedMessage))
      case Neither => Submission(Some(request), None, Stayed)
      case User(id) =>
        match lookup(id)
        case Some(p) => Submission(Some(request), Some(id), SignedIn(ProfileToUserData(p, f.password)))
        case None => Submission(Some(request), Some(id), Stayed)
  }

  /** The wizard callbacks a submission triggers: the user record, then the
      jump to the scanning step (the page wires `onNext` to `skipToTesting`). */
  function Callbacks(o: Outcome): (actions: seq<Wizard.Action>)
    ensures |actions| > 0 <==> o.SignedIn?
  {
    if o.SignedIn? then [Wizard.SetUserData(o.user), Wizard.SkipToTesting] else []
  }

  /** A successful sign-in from the login screen lands on the scanning step
      with the profile's user record and the balance untouched; any other
      outcome leaves the wizard where it was. */
  lemma {:induction false} SignInReachesScanner(s: Wizard.AppState, f: FormData, signIn: SignInRequest -> Reply, lookup: string -> Option<Profile>)
    ensures var o := Submit(f, signIn, lookup).outcome;
      var r := Wizard.ApplyAll(s, Callbacks(o));
      && (o.SignedIn? ==> r.step == Wizard.TestingStep && r.userData == Some(o.user) && r.points == s.points)
      && (!o.SignedIn? ==> r == s)
  {
    var o := Submit(f, signIn, lookup).outcome;
    if o.SignedIn? {
      var s1 := Wizard.Apply(s, Wizard.SetUserData(o.user));
      var s2 := Wizard.Apply(s1, Wizard.SkipToTesting);
      assert Callbacks(o)[1..] == [Wizard.SkipToTesting];
      assert Wizard.ApplyAll(s, Callbacks(o)) == Wizard.ApplyAll(s1, [Wizard.SkipToTesting]);
      assert Wizard.ApplyAll(s1, [Wizard.SkipToTesting]) == Wizard.ApplyAll(s2, []);
    }
  }
}

=== FILE: registration_form.dfy ===
/** The sign-up form (`components/registration-form.tsx`): its field
    validators, the error map they fill, and how a submission is turned into
    a sign-up call and its answer into a message. */
module RegistrationForm {
  import opened Wrappers
  import Text
  import opened Session

  /** The form's fields as typed. */
  datatype FormData = FormData(username: string, email: string, password: string, gender: string, age: string)

  /** The fields an error can be attached to (the form keys its error map
      by these names as strings). */
  datatype Field = Username | Email | Password | Gender | Age

  /** Field to message; a field with no entry passed its check. */
  type Errors = map<Field, string>

  const UsernameMessage: string := "Username is required"
  const EmailMessage: string := "Please enter a valid email address"
  const PasswordMessage: string := "Password must contain uppercase, lowercase, number, symbol, and be at least 8 characters"
  const GenderMessage: string := "Please select your gender"
  const AgeMessage: string := "Age must be between 13 and 120"
  const AccountExistsMessage: string := "An account with this email already exists. Please try signing in instead."
  /** The message the form serialises, together with the call's data, when
      the sign-up call answers neither a user nor an error. */
  const NoUserMessage: string := "No user returned from signup"
  const UnexpectedMessage: string := "An unexpected error occurred during registration. Please try again."

  const MinPasswordLength: int := 8
  const MinAge: int := 13
  const MaxAge: int := 120

  // ---------------------------------------------------------------------
  // Email: /^[^\s@]+@[^\s@]+\.[^\s@]+$/
  // ---------------------------------------------------------------------

  /** A character the pattern's `[^\s@]` accepts. */
  predicate EmailChar(c: char) {
    !Text.IsSpace(c) && c != '@'
  }

  /** The anchored pattern read as positions: one `@` at `at` after a
      non-empty local part, a `.` at `dot` with text on both sides in the
      domain, and no whitespace or other `@` anywhere. */
  ghost predicate EmailShape(s: string, at: int, dot: int) {
    && 0 < at && at + 1 < dot < |s| - 1
    && s[at] == '@' && s[dot] == '.'
    && forall k :: 0 <= k < |s| && k != at ==> EmailChar(s[k])
  }

  ghost predicate EmailPattern(s: string) {
    exists at, dot :: EmailShape(s, at, dot)
  }

  /** The check `validateEmail` performs, read from the first `@`: no
      whitespace, a non-empty local part, no second `@`, and a `.` in the
      domain with at least one character before and after it. */
  predicate EmailCheck(s: string) {
    && Text.NoSpace(s) && '@' in s
    && var at := Text.IndexOf(s, '@');
       0 < at && at + 2 <= |s| - 1 && '@' !in s[at + 1..] && '.' in s[at + 2..|s| - 1]
  }

  /** `validateEmail`: true exactly when the whole string matches the pattern. */
  function ValidateEmail(s: string): (ok: bool)
    ensures ok <==> EmailPattern(s)
  {
    EmailCheckIffPattern(s);
    EmailCheck(s)
  }

  /** The check and the anchored pattern accept the same strings. */
  lemma EmailCheckIffPattern(s: string)
    ensures EmailCheck(s) <==> EmailPattern(s)
  {
    if EmailCheck(s) {
      var at := Text.IndexOf(s, '@');
      var dot := at + 2 + Text.IndexOf(s[at + 2..|s| - 1], '.');
      assert s[dot] == s[at + 2..|s| - 1][dot - at - 2];
      assert forall k :: at < k < |s| ==> s[k] == s[at + 1..][k - at - 1];
      assert forall k :: 0 <= k < at ==> s[k] == s[..at][k];
      assert EmailShape(s, at, dot);
    }
    if EmailPattern(s) {
      var at, dot :| EmailShape(s, at, dot);
      ShapePassesCheck(s, at, dot);
    }
  }

  /** Any position pair the pattern accepts passes the check. */
  lemma ShapePassesCheck(s: string, at: int, dot: int)
    requires EmailShape(s, at, dot)
    ensures EmailCheck(s)
  {
    assert Text.NoSpace(s) by {
      forall k | 0 <= k < |s| ensures !Text.IsSpace(s[k]) {
        if k != at { assert EmailChar(s[k]); } else { assert s[k] == '@'; }
      }
    }
    assert '@' in s by { assert s[at] == '@'; }
    var first := Text.IndexOf(s, '@');
    assert first == at by {
      assert forall k :: 0 <= k < |s| && s[k] == '@' ==> k == at by {
        forall k | 0 <= k < |s| && k != at ensures s[k] != '@' { assert EmailChar(s[k]); }
      }
    }
    assert '@' !in s[at + 1..] by {
      forall k | at + 1 <= k < |s| ensures s[k] != '@' {
        assert EmailChar(s[k]);
      }
    }
    assert s[at + 2..|s| - 1][dot - at - 2] == '.';
  }

  // ---------------------------------------------------------------------
  // Password
  // ---------------------------------------------------------------------

  /** The four character classes the password must each contain. */
  datatype CharClass = Upper | Lower | Digit | Symbol

  /** `[A-Z]`, `[a-z]`, `\d` and `[!@#$%^&*(),.?":{}|<>]`. */
  predicate InClass(c: char, cls: CharClass) {
    match cls
    case Upper => 'A' <= c <= 'Z'
    case Lower => 'a' <= c <= 'z'
    case Digit => '0' <= c <= '9'
    case Symbol => c in "!@#$%^&*(),.?\":{}|<>"
  }

  /** `/[class]/.test(s)`, searched from position `from`. */
  function HasClassFrom(s: string, cls: CharClass, from: nat): (b: bool)
    requires from <= |s|
    ensures b <==> exists i :: from <= i < |s| && InClass(s[i], cls)
    decreases |s| - from
  {
    if from == |s| then false
    else InClass(s[from], cls) || HasClassFrom(s, cls, from + 1)
  }

  /** The password rule as a statement about positions. */
  ghost predicate StrongPassword(s: string) {
    && |s| >= MinPasswordLength
    && (exists i :: 0 <= i < |s| && InClass(s[i], Upper))
    && (exists i :: 0 <= i < |s| && InClass(s[i], Lower))
    && (exists i :: 0 <= i < |s| && InClass(s[i], Digit))
    && (exists i :: 0 <= i < |s| && InClass(s[i], Symbol))
  }

  /** `validatePassword`. */
  function ValidatePassword(s: string): (ok: bool)
    ensures ok <==> StrongPassword(s)
  {
    && HasClassFrom(s, Upper, 0) && HasClassFrom(s, Lower, 0)
    && HasClassFrom(s, Digit, 0) && HasClassFrom(s, Symbol, 0)
    && |s| >= MinPasswordLength
  }

  // ---------------------------------------------------------------------
  // The form
  // ---------------------------------------------------------------------

  /** The age check on `Number.parseInt(age)`, where `None` is `NaN`. */
  predicate AgeAccepted(parsed: Option<int>) {
    parsed.Some? && MinAge <= parsed.value <= MaxAge
  }

  const AllFields: set<Field> := {Username, Email, Password, Gender, Age}

  /** The message a failing field gets. */
  function Message(k: Field): string {
    match k
    case Username => UsernameMessage
    case Email => EmailMessage
    case Password => PasswordMessage
    case Gender => GenderMessage
    case Age => AgeMessage
  }

  /** Whether one field fails the check `validateForm` applies to it. */
  function FieldFails(f: FormData, parseInt: string -> Option<int>, k: Field): bool {
    match k
    case Username => Text.Trim(f.username) == ""
    case Email => !ValidateEmail(f.email)
    case Password => !ValidatePassword(f.password)
    case Gender => f.gender == ""
    case Age =>
      var age := parseInt(f.age);
      age.None? || age.value < MinAge || age.value > MaxAge
  }

  /** What each field's rule rejects, stated without the validators: a
      blank username, an email outside the pattern, a weak password, no
      gender, an age that is not a number in [13, 120]. */
  ghost predicate FieldInvalid(f: FormData, parseInt: string -> Option<int>, k: Field) {
    match k
    case Username => Text.AllSpace(f.username)
    case Email => !EmailPattern(f.email)
    case Password => !StrongPassword(f.password)
    case Gender => f.gender == ""
    case Age => !AgeAccepted(parseInt(f.age))
  }

  /** `validateForm`'s error map. `parseInt` is `Number.parseInt`, `None`
      standing for `NaN`. */
  function ValidateForm(f: FormData, parseInt: string -> Option<int>): (errors: Errors)
    // each field's entry is present exactly when that field breaks its rule
    ensures forall k :: k in errors <==> FieldInvalid(f, parseInt, k)
    ensures forall k :: k in errors ==> errors[k] == Message(k)
  {
    var errors := map k | k in AllFields && FieldFails(f, parseInt, k) :: Message(k);
    assert forall k :: k in errors <==> FieldInvalid(f, parseInt, k) by {
      forall k ensures k in errors <==> FieldInvalid(f, parseInt, k) {
        assert k in AllFields by { assert k.Username? || k.Email? || k.Password? || k.Gender? || k.Age?; }
        FieldFailsIff(f, parseInt, k);
      }
    }
    errors
  }

  /** Each validator rejects exactly what its rule rejects. */
  lemma FieldFailsIff(f: FormData, parseInt: string -> Option<int>, k: Field)
    ensures FieldFails(f, parseInt, k) <==> FieldInvalid(f, parseInt, k)
  {
    if k == Username {
      Text.TrimEmptyIff(f.username);
    }
  }

  /** The form is valid (the error map is empty) exactly when every field
      passes its own check. */
  lemma FormValidIff(f: FormData, parseInt: string -> Option<int>)
    ensures ValidateForm(f, parseInt) == map[] <==>
      && !Text.AllSpace(f.username) && EmailPattern(f.email) && StrongPassword(f.password)
      && f.gender != "" && AgeAccepted(parseInt(f.age))
  {
    ErrorsEmptyIff(ValidateForm(f, parseInt), f, parseInt);
  }

  /** An error map keyed by the failing fields is empty exactly when every
      field passes its rule. */
  lemma ErrorsEmptyIff(e: Errors, f: FormData, parseInt: string -> Option<int>)
    requires forall k :: k in e <==> FieldInvalid(f, parseInt, k)
    ensures e == map[] <==>
      && !Text.AllSpace(f.username) && EmailPattern(f.email) && StrongPassword(f.password)
      && f.gender != "" && AgeAccepted(parseInt(f.age))
  {
    assert FieldInvalid(f, parseInt, Username) == Text.AllSpace(f.username);
    assert FieldInvalid(f, parseInt, Email) == !EmailPattern(f.email);
    assert FieldInvalid(f, parseInt, Password) == !StrongPassword(f.password);
    assert FieldInvalid(f, parseInt, Gender) == (f.gender == "");
    assert FieldInvalid(f, parseInt, Age) == !AgeAccepted(parseInt(f.age));
    if e != map[] {
      var k :| k in e;
      assert k.Username? || k.Email? || k.Password? || k.Gender? || k.Age?;
    } else {
      assert Username !in e && Email !in e && Password !in e && Gender !in e && Age !in e;
    }
  }

  // ---------------------------------------------------------------------
  // Submitting
  // ---------------------------------------------------------------------

  /** The sign-up call: email and password (the redirect URL is a constant). */
  datatype SignUpRequest = SignUpRequest(email: string, password: string)

  /** The form after a submission. */
  datatype Outcome =
    | Invalid(errors: Errors)
    | AwaitingVerification(registeredEmail: string)
    | SignUpFailed(general: string)

  /** One submission: the sign-up call made, if any, and the outcome. */
  datatype Submission = Submission(request: Option<SignUpRequest>, outcome: Outcome)

  const AlreadyRegistered: string := "already registered"

  /** The message for a sign-up error object: the fixed "account exists"
      text when its message mentions "already registered", else the
      serialised error. */
  function SignUpErrorMessage(e: ServiceError): (m: string)
    ensures (exists i :: Text.OccursAt(e.message, AlreadyRegistered, i)) ==> m == AccountExistsMessage
    ensures !(exists i :: Text.OccursAt(e.message, AlreadyRegistered, i)) ==> m == e.serialised
  {
    if Text.Includes(e.message, AlreadyRegistered) then AccountExistsMessage else e.serialised
  }

  /** `handleSubmit`: validation first, then the sign-up call and its answer.
      `noUserText(r)` is the JSON text of the data the call `r` returned
      together with `NoUserMessage`, shown when the call answers neither a
      user nor an error. */
  function Submit(f: FormData, parseInt: string -> Option<int>, signUp: SignUpRequest -> Reply,
                  noUserText: SignUpRequest -> string): (s: Submission)
    // invalid input never reaches the sign-up call
    ensures s.request.None? <==> ValidateForm(f, parseInt) != map[]
    ensures s.request.None? ==> s.outcome == Invalid(ValidateForm(f, parseInt))
    ensures s.request.Some? ==> s.request.value == SignUpRequest(f.email, f.password) && !s.outcome.Invalid?
    // the verification screen only for a returned user, with the submitted email
    ensures s.outcome.AwaitingVerification? <==> s.request.Some? && signUp(s.request.value).User?
    ensures s.outcome.AwaitingVerification? ==> s.outcome.registeredEmail == f.email
    // every other answer is a general error
    ensures s.request.Some? && signUp(s.request.value).Failed? ==>
              s.outcome == SignUpFailed(SignUpErrorMessage(signUp(s.request.value).error))
    ensures s.request.Some? && signUp(s.request.value).Neither? ==>
              s.outcome == SignUpFailed(noUserText(s.request.value))
    ensures s.request.Some? && signUp(s.request.value).Threw? ==> s.outcome == SignUpFailed(UnexpectedMessage)
  {
    var errors := ValidateForm(f, parseInt);
    if errors != map[] then Submission(None, Invalid(errors))
    else
      var request := SignUpRequest(f.email, f.password);
      var outcome :=
        match signUp(request)
        case Failed(e) => SignUpFailed(SignUpErrorMessage(e))
        case User(_) => AwaitingVerification(f.email)
        case Neither => SignUpFailed(noUserText(request))
        case Threw(_) => SignUpFailed(UnexpectedMessage);
      Submission(Some(request), outcome)
  }

  /** A whitespace-only username is rejected, however long. */
  lemma BlankUsernameRejected(f: FormData, parseInt: string -> Option<int>)
    requires |f.username| > 0 && forall i :: 0 <= i < |f.username| ==> f.username[i] == ' '
    ensures Username in ValidateForm(f, parseInt)
    ensures Submit(f, parseInt, _ => Neither, _ => "").request.None?
  {
  }
}

=== FILE: scanner.dfy ===
/** The scanning step (`components/agriscan-testing.tsx`): choosing an image,
    running a simulated scan that costs five points, and the list of results
    it keeps. The scan's random draws, the clock and the device location are
    inputs; floating-point numbers are exact reals. */
module Scanner {
  import opened Wrappers
  import Wizard

  /** A chosen file; only its size in bytes matters here. */
  datatype File = File(name: string, size: int)

  /** A position in degrees. */
  datatype Location = Location(lat: real, lng: real)

  datatype Status = Healthy | Unhealthy

  /** One scan result; `id` and `timestamp` both come from the clock. */
  datatype ScanResult = ScanResult(id: int, status: Status, location: Location, timestamp: int, confidence: int)

  /** The component's state. `preview` is the image's data URL once read. */
  datatype ScanState = ScanState(
    selected: Option<File>,
    preview: Option<string>,
    isScanning: bool,
    results: seq<ScanResult>,
    location: Option<Location>)

  const MaxUploadBytes: int := 10 * 1024 * 1024
  const ScanCost: int := 5
  const MinConfidence: int := 85
  const ConfidenceSpread: int := 15
  const HealthyThreshold: real := 0.4
  const JitterScale: real := 0.002

  /** The four `Math.random()` values a scan draws, in order. */
  datatype Draws = Draws(health: real, confidence: real, latJitter: real, lngJitter: real)

  /** `Math.random()` returns a value in [0, 1). */
  predicate Unit(r: real) {
    0.0 <= r < 1.0
  }

  predicate ValidDraws(d: Draws) {
    Unit(d.health) && Unit(d.confidence) && Unit(d.latJitter) && Unit(d.lngJitter)
  }

  // ---------------------------------------------------------------------
  // Choosing a file
  // ---------------------------------------------------------------------

  /** The state after the file input changes, and whether the size alert was
      shown. No file, or a file over the limit, leaves the state unchanged. */
  function HandleImageUpload(st: ScanState, file: Option<File>): (r: (ScanState, bool))
    ensures r.1 <==> file.Some? && file.value.size > MaxUploadBytes
    ensures file.None? || r.1 ==> r.0 == st
    ensures file.Some? && !r.1 ==> r.0 == st.(selected := file)
  {
    match file
    case None => (st, false)
    case Some(f) =>
      if f.size > MaxUploadBytes then (st, true)
      else (st.(selected := Some(f)), false)
  }

  /** The file reader's result arriving: the preview is the data URL read. */
  function PreviewLoaded(st: ScanState, dataUrl: string): (r: ScanState)
    ensures r.preview == Some(dataUrl)
    ensures r.(preview := st.preview) == st
  {
    st.(preview := Some(dataUrl))
  }

  // ---------------------------------------------------------------------
  // Running a scan
  // ---------------------------------------------------------------------

  /** `Math.floor(r * 15) + 85`. */
  function Confidence(r: real): (c: int)
    requires Unit(r)
    ensures MinConfidence <= c <= MinConfidence + ConfidenceSpread - 1
    ensures (c - MinConfidence) as real <= r * ConfidenceSpread as real < (c - MinConfidence + 1) as real
  {
    (r * ConfidenceSpread as real).Floor + MinConfidence
  }

  /** `x + (r - 0.5) * 0.002`: a coordinate moved by less than 0.001 degrees. */
  function Jitter(x: real, r: real): (y: real)
    requires Unit(r)
    ensures x - JitterScale / 2.0 <= y < x + JitterScale / 2.0
  {
    x + (r - 0.5) * JitterScale
  }

  /** What a completed scan produces: the new state and the balance it
      reports to the wizard. */
  datatype Completed = Completed(state: ScanState, reportedPoints: int)

  /** The guard at the top of `runAgriScanTest`. It does not look at
      `isScanning`. */
  predicate MayRun(st: ScanState, points: int) {
    st.selected.Some? && points >= ScanCost && st.location.Some?
  }

  /** `runAgriScanTest` with the given balance, draws and clock reading;
      `None` when the guard returns early. */
  function RunScan(st: ScanState, points: int, d: Draws, now: int): (r: Option<Completed>)
    requires ValidDraws(d)
    ensures r.Some? <==> MayRun(st, points)
    // the balance reported is exactly five less, and never negative
    ensures r.Some? ==> r.value.reportedPoints == points - ScanCost && r.value.reportedPoints >= 0
    // the new result goes in front, the earlier ones keep their order
    ensures r.Some? ==> |r.value.state.results| == |st.results| + 1 && r.value.state.results[1..] == st.results
    ensures r.Some? ==> var res := r.value.state.results[0];
      && MinConfidence <= res.confidence < MinConfidence + ConfidenceSpread
      && (res.status == Healthy <==> d.health > HealthyThreshold)
      && st.location.value.lat - JitterScale / 2.0 <= res.location.lat < st.location.value.lat + JitterScale / 2.0
      && st.location.value.lng - JitterScale / 2.0 <= res.location.lng < st.location.value.lng + JitterScale / 2.0
    // afterwards nothing is selected, nothing previewed, nothing running
    ensures r.Some? ==> r.value.state.selected.None? && r.value.state.preview.None? && !r.value.state.isScanning
    ensures r.Some? ==> r.value.state.location == st.location
  {
    if st.selected.None? || points < ScanCost || st.location.None? then None
    else
      var loc := st.location.value;
      var result := ScanResult(
        now,
        if d.health > HealthyThreshold then Healthy else Unhealthy,
        Location(Jitter(loc.lat, d.latJitter), Jitter(loc.lng, d.lngJitter)),
        now,
        Confidence(d.confidence));
      var results := [result] + st.results;
      assert results[1..] == st.results;
      Some(Completed(st.(results := results, isScanning := false, selected := None, preview := None), points - ScanCost))
  }

  /** `canRunTest`, which enables the scan button. */
  function CanRunTest(st: ScanState, points: int): (b: bool)
    // enabled exactly when the scan handler would run and no scan is in progress
    ensures b <==> MayRun(st, points) && !st.isScanning
  {
    points >= ScanCost && st.selected.Some? && !st.isScanning && st.location.Some?
  }

  /** Whenever the button is enabled, pressing it completes a scan; the
      converse fails only for a run already in progress, which the handler
      itself does not refuse. */
  lemma EnabledRunCompletes(st: ScanState, points: int, d: Draws, now: int)
    requires ValidDraws(d)
    ensures CanRunTest(st, points) ==> RunScan(st, points, d, now).Some?
    ensures RunScan(st, points, d, now).Some? && !st.isScanning ==> CanRunTest(st, points)
  {
  }

  /** The scanner's reported balance, handed to the wizard's `updatePoints`,
      takes exactly five points off the wizard's balance. */
  lemma ScanChargesWizard(ws: Wizard.AppState, st: ScanState, d: Draws, now: int)
    requires ValidDraws(d)
    requires RunScan(st, ws.points, d, now).Some?
    ensures Wizard.Apply(ws, Wizard.UpdatePoints(RunScan(st, ws.points, d, now).value.reportedPoints)).points == ws.points - ScanCost
    ensures Wizard.Apply(ws, Wizard.UpdatePoints(RunScan(st, ws.points, d, now).value.reportedPoints)).step == ws.step
  {
  }

  // ---------------------------------------------------------------------
  // A session of scans
  // ---------------------------------------------------------------------

  /** One user attempt: choose a file, then press scan. */
  datatype Attempt = Attempt(file: File, draws: Draws, now: int)

  predicate ValidAttempts(attempts: seq<Attempt>) {
    forall i :: 0 <= i < |attempts| ==> ValidDraws(attempts[i].draws)
  }

  /** The component and the wizard's balance after a series of attempts,
      each charging the wizard through `updatePoints` when its scan completes. */
  function RunAttempts(st: ScanState, points: int, attempts: seq<Attempt>): (r: (ScanState, int))
    requires ValidAttempts(attempts)
    decreases |attempts|
  {
    if |attempts| == 0 then (st, points)
    else
      var a := attempts[0];
      var chosen := HandleImageUpload(st, Some(a.file)).0;
      match RunScan(chosen, points, a.draws, a.now)
      case None => RunAttempts(chosen, points, attempts[1..])
      case Some(c) => RunAttempts(c.state, c.reportedPoints, attempts[1..])
  }

  /** Over any series of attempts the balance falls by exactly five per
      recorded result and never goes below zero, and the results recorded
      earlier stay at the end of the list in their order. */
  lemma {:induction false} SessionAccounting(st: ScanState, points: int, attempts: seq<Attempt>)
    requires ValidAttempts(attempts) && points >= 0
    ensures var (st', points') := RunAttempts(st, points, attempts);
      var added := |st'.results| - |st.results|;
      && added >= 0
      && points' == points - ScanCost * added
      && points' >= 0
      && st'.results[added..] == st.results
    decreases |attempts|
  {
    if |attempts| > 0 {
      var a := attempts[0];
      var chosen := HandleImageUpload(st, Some(a.file)).0;
      assert ValidAttempts(attempts[1..]) by {
        forall i | 0 <= i < |attempts[1..]| ensures ValidDraws(attempts[1..][i].draws) {
          assert attempts[1..][i] == attempts[i + 1];
        }
      }
      match RunScan(chosen, points, a.draws, a.now)
      case None =>
        SessionAccounting(chosen, points, attempts[1..]);
      case Some(c) =>
        SessionAccounting(c.state, c.reportedPoints, attempts[1..]);
        var st' := RunAttempts(c.state, c.reportedPoints, attempts[1..]).0;
        var added := |st'.results| - |c.state.results|;
        assert st'.results[added..] == c.state.results;
        assert c.state.results[1..] == st.results;
        assert st'.results[added + 1..] == c.state.results[1..];
    }
  }
}

=== FILE: search_params.dfy ===
/** Name/value parameter lists with the semantics of the WHATWG URL
    Standard's `URLSearchParams`: an ordered list of pairs in which names may
    repeat, `get` returning the first match and `set` replacing the first
    match and dropping the rest. Also the two parsers that fill such lists:
    the standard's application/x-www-form-urlencoded parser (used for the
    query component of a URL, section 3.4 of RFC 3986) and the callback page's
    hand-written parser for the fragment component (section 3.5). */
module SearchParams {
  import opened Wrappers
  import Text

  type Pair = (string, string)
  type Params = seq<Pair>

  /** `params.get(k)`: the value of the first pair named `k`, if any. */
  function Get(ps: Params, k: string): Option<string> {
    if |ps| == 0 then None
    else if ps[0].0 == k then Some(ps[0].1)
    else Get(ps[1..], k)
  }

  /** `params.has(k)`. */
  predicate Has(ps: Params, k: string) {
    Get(ps, k).Some?
  }

  /** `Get` finds the FIRST pair named `k`, and finds nothing only when no
      pair is named `k`. */
  lemma {:induction false} GetFindsFirst(ps: Params, k: string)
    ensures Get(ps, k).None? <==> forall i :: 0 <= i < |ps| ==> ps[i].0 != k
    ensures Get(ps, k).Some? ==> exists i :: 0 <= i < |ps| && ps[i] == (k, Get(ps, k).value)
                                              && forall j :: 0 <= j < i ==> ps[j].0 != k
    decreases |ps|
  {
    if |ps| > 0 && ps[0].0 != k {
      GetFindsFirst(ps[1..], k);
      assert forall i :: 1 <= i < |ps| ==> ps[i] == ps[1..][i - 1];
      if Get(ps, k).Some? {
        var i :| 0 <= i < |ps[1..]| && ps[1..][i] == (k, Get(ps, k).value)
                 && forall j :: 0 <= j < i ==> ps[1..][j].0 != k;
        assert ps[i + 1] == (k, Get(ps, k).value);
        assert forall j :: 0 <= j < i + 1 ==> ps[j].0 != k by {
          forall j | 0 <= j < i + 1 ensures ps[j].0 != k {
            if j > 0 { assert ps[j] == ps[1..][j - 1]; }
          }
        }
      }
    } else if |ps| > 0 {
      assert ps[0] == (k, Get(ps, k).value);
    }
  }

  /** The list without any pair named `k`. */
  function RemoveAll(ps: Params, k: string): (r: Params)
    ensures !Has(r, k)
    ensures forall j :: j != k ==> Get(r, j) == Get(ps, j)
    ensures |r| <= |ps|
  {
    if |ps| == 0 then []
    else
      var rest := RemoveAll(ps[1..], k);
      if ps[0].0 == k then rest
      else
        var r := [ps[0]] + rest;
        assert r[1..] == rest;
        r
  }

  /** Removing a name that is absent changes nothing. */
  lemma {:induction false} RemoveAllAbsent(ps: Params, k: string)
    requires !Has(ps, k)
    ensures RemoveAll(ps, k) == ps
    decreases |ps|
  {
    if |ps| > 0 {
      RemoveAllAbsent(ps[1..], k);
      assert ps == [ps[0]] + ps[1..];
    }
  }

  /** `params.set(k, v)`: the first pair named `k` gets value `v` and the
      other pairs named `k` are removed; without such a pair, `(k, v)` is
      appended. Every other pair keeps its place. */
  function Set(ps: Params, k: string, v: string): (r: Params)
    ensures Get(r, k) == Some(v)
    ensures forall j :: j != k ==> Get(r, j) == Get(ps, j)
    ensures RemoveAll(r, k) == RemoveAll(ps, k)
    ensures !Has(ps, k) ==> r == ps + [(k, v)]
  {
    if |ps| == 0 then [(k, v)]
    else if ps[0].0 == k then
      var r := [(k, v)] + RemoveAll(ps[1..], k);
      RemoveAllAbsent(RemoveAll(ps[1..], k), k);
      assert r[1..] == RemoveAll(ps[1..], k);
      r
    else
      var rest := Set(ps[1..], k, v);
      var r := [ps[0]] + rest;
      assert r[1..] == rest;
      assert !Has(ps, k) ==> r == ps + [(k, v)] by {
        if !Has(ps, k) { assert ps == [ps[0]] + ps[1..]; }
      }
      r
  }

  // ---------------------------------------------------------------------
  // Query strings: the application/x-www-form-urlencoded parser
  // ---------------------------------------------------------------------

  /** One `&`-separated sequence split at its FIRST `=`: the name is the text
      before it and the value everything after it (later `=` included); a
      sequence without `=` is all name with an empty value. */
  function SplitNameValue(piece: string): (nv: Pair)
    ensures '=' !in nv.0
    ensures '=' in piece ==> piece == nv.0 + "=" + nv.1
    ensures '=' !in piece ==> nv == (piece, "")
  {
    if '=' in piece then
      var i := Text.IndexOf(piece, '=');
      assert piece == piece[..i] + "=" + piece[i + 1..];
      (piece[..i], piece[i + 1..])
    else (piece, "")
  }

  /** The pair one non-empty `&`-separated sequence becomes: its name and
      value, each decoded. */
  function DecodedPair(piece: string, decode: string -> string): Pair {
    var nv := SplitNameValue(piece);
    (decode(nv.0), decode(nv.1))
  }

  /** The parser's loop over the `&`-separated sequences: empty sequences are
      skipped, the others become one pair each, in order. `decode` stands for
      the standard's replacement of `+` by a space followed by
      percent-decoding, which never fails. */
  function ParsePieces(pieces: seq<string>, decode: string -> string): (ps: Params)
    ensures |ps| <= |pieces|
    ensures (forall i :: 0 <= i < |pieces| ==> pieces[i] != "") ==> |ps| == |pieces|
  {
    if |pieces| == 0 then []
    else
      var rest := ParsePieces(pieces[1..], decode);
      if pieces[0] == "" then rest
      else [DecodedPair(pieces[0], decode)] + rest
  }

  /** The non-empty sequences, in order. */
  function NonEmpty(pieces: seq<string>): (kept: seq<string>)
    ensures |kept| <= |pieces|
    ensures forall i :: 0 <= i < |kept| ==> kept[i] != "" && kept[i] in pieces
    ensures (forall i :: 0 <= i < |pieces| ==> pieces[i] != "") ==> kept == pieces
  {
    if |pieces| == 0 then []
    else
      var rest := NonEmpty(pieces[1..]);
      assert forall i :: 0 <= i < |rest| ==> rest[i] in pieces by {
        forall i | 0 <= i < |rest| ensures rest[i] in pieces {
          var j :| 0 <= j < |pieces[1..]| && pieces[1..][j] == rest[i];
          assert pieces[j + 1] == rest[i];
        }
      }
      if pieces[0] == "" then rest
      else
        var kept := [pieces[0]] + rest;
        assert pieces == [pieces[0]] + pieces[1..];
        kept
  }

  /** Each sequence decoded into a pair, in order. */
  function DecodeAll(pieces: seq<string>, decode: string -> string): (ps: Params)
    ensures |ps| == |pieces|
    ensures forall i :: 0 <= i < |pieces| ==> ps[i] == DecodedPair(pieces[i], decode)
  {
    seq(|pieces|, i requires 0 <= i < |pieces| => DecodedPair(pieces[i], decode))
  }

  /** The parser's result is exactly the non-empty sequences, each decoded
      into a pair, in their order. */
  lemma {:induction false} ParsePiecesDecodesNonEmpty(pieces: seq<string>, decode: string -> string)
    ensures ParsePieces(pieces, decode) == DecodeAll(NonEmpty(pieces), decode)
    decreases |pieces|
  {
    if |pieces| > 0 {
      ParsePiecesDecodesNonEmpty(pieces[1..], decode);
      if pieces[0] != "" {
        var rest := NonEmpty(pieces[1..]);
        assert NonEmpty(pieces) == [pieces[0]] + rest;
        assert DecodeAll([pieces[0]] + rest, decode) == [DecodedPair(pieces[0], decode)] + DecodeAll(rest, decode);
      }
    }
  }

  /** The loop works piece by piece: parsing two runs of sequences one after
      the other gives the two results concatenated. */
  lemma {:induction false} ParsePiecesConcat(a: seq<string>, b: seq<string>, decode: string -> string)
    ensures ParsePieces(a + b, decode) == ParsePieces(a, decode) + ParsePieces(b, decode)
    decreases |a|
  {
    if |a| > 0 {
      assert (a + b)[1..] == a[1..] + b;
      ParsePiecesConcat(a[1..], b, decode);
    } else {
      assert a + b == b;
    }
  }

  /** An empty sequence anywhere contributes nothing. */
  lemma SkipsEmptyPiece(a: seq<string>, b: seq<string>, decode: string -> string)
    ensures ParsePieces(a + [""] + b, decode) == ParsePieces(a + b, decode)
  {
    ParsePiecesConcat(a, [""] + b, decode);
    ParsePiecesConcat([""], b, decode);
    ParsePiecesConcat(a, b, decode);
    assert a + [""] + b == a + ([""] + b);
  }

  /** The application/x-www-form-urlencoded parser applied to a query. */
  function ParseUrlEncoded(input: string, decode: string -> string): (ps: Params)
    ensures '&' !in input ==> ps == (if input == "" then [] else [DecodedPair(input, decode)])
  {
    ParsePieces(Text.Split(input, '&'), decode)
  }

  /** Queries joined by `&` parse to the concatenation of their pairs. */
  lemma ParseUrlEncodedConcat(a: string, b: string, decode: string -> string)
    ensures ParseUrlEncoded(a + "&" + b, decode) == ParseUrlEncoded(a, decode) + ParseUrlEncoded(b, decode)
  {
    var pa := Text.Split(a, '&');
    var pb := Text.Split(b, '&');
    Text.JoinAppend(pa, pb, '&');
    assert forall i :: 0 <= i < |pa + pb| ==> '&' !in (pa + pb)[i];
    Text.SplitJoin(pa + pb, '&');
    ParsePiecesConcat(pa, pb, decode);
  }

  /** `new URLSearchParams(init)` for a string `init`: one leading `?` is
      dropped, then the rest is parsed. */
  function FromInit(init: string, decode: string -> string): (ps: Params)
    ensures |init| > 0 && init[0] == '?' ==> ps == ParseUrlEncoded(init[1..], decode)
    ensures (|init| == 0 || init[0] != '?') ==> ps == ParseUrlEncoded(init, decode)
  {
    if |init| > 0 && init[0] == '?' then ParseUrlEncoded(init[1..], decode)
    else ParseUrlEncoded(init, decode)
  }

  /** A single leading `?` makes no difference to what is read, and `?`
      alone reads as no parameters. */
  lemma QuestionMarkOptional(query: string, decode: string -> string)
    requires query == "" || query[0] != '?'
    ensures FromInit("?" + query, decode) == FromInit(query, decode)
    ensures FromInit("?", decode) == []
  {
    assert ("?" + query)[1..] == query;
    assert "?"[1..] == "";
  }

  /** The pairs as `name=value` sequences joined by `&` (no percent-encoding). */
  function Serialize(ps: Params): string {
    if |ps| == 0 then "" else Text.Join(PairTexts(ps), '&')
  }

  function PairTexts(ps: Params): (ts: seq<string>)
    ensures |ts| == |ps|
    ensures forall i :: 0 <= i < |ps| ==> ts[i] == ps[i].0 + "=" + ps[i].1
  {
    seq(|ps|, i requires 0 <= i < |ps| => ps[i].0 + "=" + ps[i].1)
  }

  /** A pair the plain serialisation can carry: no `&` anywhere and no `=`
      in the name. */
  predicate Serialisable(p: Pair) {
    '&' !in p.0 && '=' !in p.0 && '&' !in p.1
  }

  /** Parsing a serialised list gives the list back when decoding is the
      identity: empty names survive, and values keep their own `=`. */
  lemma {:induction false} ParseSerializeRoundTrip(ps: Params)
    requires forall i :: 0 <= i < |ps| ==> Serialisable(ps[i])
    ensures ParseUrlEncoded(Serialize(ps), s => s) == ps
  {
    if |ps| == 0 {
      assert Text.Split("", '&') == [""];
    } else {
      var ts := PairTexts(ps);
      forall i | 0 <= i < |ts| ensures '&' !in ts[i] {
        assert ts[i] == ps[i].0 + "=" + ps[i].1;
      }
      Text.SplitJoin(ts, '&');
      ParsePairTexts(ps);
    }
  }

  lemma {:induction false} ParsePairTexts(ps: Params)
    requires forall i :: 0 <= i < |ps| ==> Serialisable(ps[i])
    ensures ParsePieces(PairTexts(ps), s => s) == ps
    decreases |ps|
  {
    if |ps| > 0 {
      var ts := PairTexts(ps);
      assert ts[0] == ps[0].0 + "=" + ps[0].1;
      assert '=' in ts[0] by { assert ts[0][|ps[0].0|] == '='; }
      var nv := SplitNameValue(ts[0]);
      NameValueUnique(ps[0].0, ps[0].1, nv.0, nv.1);
      assert DecodedPair(ts[0], s => s) == ps[0];
      assert ts[1..] == PairTexts(ps[1..]);
      ParsePairTexts(ps[1..]);
      assert ts[0] != "";
      assert ParsePieces(ts, s => s) == [ps[0]] + ParsePieces(ts[1..], s => s);
      assert ps == [ps[0]] + ps[1..];
    }
  }

  /** `name=value` splits back into the same name and value when the name
      has no `=`. */
  lemma NameValueUnique(n: string, v: string, n': string, v': string)
    requires '=' !in n && '=' !in n'
    requires n + "=" + v == n' + "=" + v'
    ensures n == n' && v == v'
  {
    var s := n + "=" + v;
    assert forall i :: 0 <= i < |n| ==> s[i] == n[i];
    assert forall i :: 0 <= i < |n'| ==> s[i] == n'[i];
    assert s[|n|] == '=' && s[|n'|] == '=';
    assert |n| == |n'|;
    assert s[..|n|] == n && s[..|n'|] == n';
    assert s[|n| + 1..] == v && s[|n'| + 1..] == v';
  }

  // ---------------------------------------------------------------------
  // Fragments: the callback page's own `k=v&k=v` parser
  // ---------------------------------------------------------------------

  /** One `&`-separated fragment piece read as `const [k, v] = piece.split("=")`:
      the name is the text before its first `=`, the raw value the text
      between its first and second `=` (empty without a first `=`); anything
      after a second `=` is lost. */
  function ReadPiece(piece: string): (kv: Pair)
    ensures '=' !in kv.0 && '=' !in kv.1
    ensures '=' !in piece ==> kv == (piece, "")
    // with an `=`: name, `=`, value is how the piece starts, and what follows (if anything) is a second `=`
    ensures '=' in piece ==>
      && |kv.0| + |kv.1| + 1 <= |piece|
      && piece[..|kv.0| + |kv.1| + 1] == kv.0 + "=" + kv.1
      && (|kv.0| + |kv.1| + 1 == |piece| || piece[|kv.0| + |kv.1| + 1] == '=')
  {
    Text.FirstTwo(piece, '=')
  }

  /** Every piece read in order. */
  function ReadPieces(pieces: seq<string>): (kvs: seq<Pair>)
    ensures |kvs| == |pieces|
    ensures forall i :: 0 <= i < |pieces| ==> kvs[i] == ReadPiece(pieces[i])
  {
    seq(|pieces|, i requires 0 <= i < |pieces| => ReadPiece(pieces[i]))
  }

  /** Decoding this piece's value throws. Pieces with an empty name are
      never decoded. */
  predicate DecodeThrows(kv: Pair, decode: string -> Result<string, string>) {
    kv.0 != "" && decode(kv.1).Failure?
  }

  /** Reference lookup: the raw value of the LAST piece named `k`, ignoring
      the empty name. */
  function LastRaw(kvs: seq<Pair>, k: string): Option<string>
    decreases |kvs|
  {
    if |kvs| == 0 || k == "" then None
    else if kvs[|kvs| - 1].0 == k then Some(kvs[|kvs| - 1].1)
    else LastRaw(kvs[..|kvs| - 1], k)
  }

  /** The value the fragment parser is expected to hold for `k`: the decoded
      last raw value, or nothing. */
  function DecodedLast(kvs: seq<Pair>, k: string, decode: string -> Result<string, string>): Option<string> {
    match LastRaw(kvs, k)
    case None => None
    case Some(raw) => if decode(raw).Success? then Some(decode(raw).value) else None
  }

  /** The page's loop over fragment pieces, left to right: a piece with a
      non-empty name is `set` with its decoded value; the first value whose
      decoding throws aborts the whole parse with that error. */
  function ApplyFragmentPieces(kvs: seq<Pair>, decode: string -> Result<string, string>): Result<Params, string>
    decreases |kvs|
  {
    if |kvs| == 0 then Success([])
    else ApplyFragmentPiece(ApplyFragmentPieces(kvs[..|kvs| - 1], decode), kvs[|kvs| - 1], decode)
  }

  /** One step of that loop: an earlier failure stands, an unnamed piece is
      skipped, and otherwise the decoded value is `set` or its error ends
      the parse. */
  function ApplyFragmentPiece(prev: Result<Params, string>, kv: Pair, decode: string -> Result<string, string>): (r: Result<Params, string>)
    ensures r.Failure? <==> prev.Failure? || DecodeThrows(kv, decode)
    ensures prev.Failure? ==> r == prev
    ensures prev.Success? && DecodeThrows(kv, decode) ==> r.error == decode(kv.1).error
  {
    if prev.Failure? || kv.0 == "" then prev
    else
      match decode(kv.1)
      case Failure(e) => Failure(e)
      case Success(v) => Success(Set(prev.value, kv.0, v))
  }

  /** Piece `i` is the first whose decoding throws. */
  ghost predicate FirstThrowAt(kvs: seq<Pair>, decode: string -> Result<string, string>, i: int) {
    && 0 <= i < |kvs| && DecodeThrows(kvs[i], decode)
    && forall j :: 0 <= j < i ==> !DecodeThrows(kvs[j], decode)
  }

  /** A successful fragment parse met no piece whose decoding throws. */
  lemma {:induction false} FragmentSucceedsWithoutThrow(kvs: seq<Pair>, decode: string -> Result<string, string>)
    requires ApplyFragmentPieces(kvs, decode).Success?
    ensures forall i :: 0 <= i < |kvs| ==> !DecodeThrows(kvs[i], decode)
    decreases |kvs|
  {
    if |kvs| > 0 {
      var n := |kvs| - 1;
      var init := kvs[..n];
      FragmentSucceedsWithoutThrow(init, decode);
      forall i | 0 <= i < |kvs| ensures !DecodeThrows(kvs[i], decode) {
        if i < n { assert init[i] == kvs[i]; }
      }
    }
  }

  /** A failed fragment parse fails with the error of the first piece whose
      decoding throws. */
  lemma {:induction false} FragmentFailsOnFirstThrow(kvs: seq<Pair>, decode: string -> Result<string, string>)
    requires ApplyFragmentPieces(kvs, decode).Failure?
    ensures exists i :: FirstThrowAt(kvs, decode, i)
              && ApplyFragmentPieces(kvs, decode).error == decode(kvs[i].1).error
    decreases |kvs|
  {
    var n := |kvs| - 1;
    var init := kvs[..n];
    var prev := ApplyFragmentPieces(init, decode);
    assert forall i :: 0 <= i < n ==> init[i] == kvs[i];
    if prev.Failure? {
      FragmentFailsOnFirstThrow(init, decode);
      var i :| FirstThrowAt(init, decode, i) && prev.error == decode(init[i].1).error;
      assert FirstThrowAt(kvs, decode, i);
    } else {
      FragmentSucceedsWithoutThrow(init, decode);
      assert FirstThrowAt(kvs, decode, n);
    }
  }

  /** After a successful fragment parse each name holds the decoded value of
      its LAST occurrence, and the empty name holds nothing. */
  lemma {:induction false} FragmentLastWins(kvs: seq<Pair>, decode: string -> Result<string, string>)
    requires ApplyFragmentPieces(kvs, decode).Success?
    ensures forall k :: Get(ApplyFragmentPieces(kvs, decode).value, k) == DecodedLast(kvs, k, decode)
    decreases |kvs|
  {
    if |kvs| > 0 {
      var n := |kvs| - 1;
      var init := kvs[..n];
      var last := kvs[n];
      FragmentLastWins(init, decode);
      forall k ensures Get(ApplyFragmentPieces(kvs, decode).value, k) == DecodedLast(kvs, k, decode) {
        assert LastRaw(kvs, k) == if k != "" && last.0 == k then Some(last.1) else LastRaw(init, k);
      }
    }
  }

  /** The fragment component (without `#`) parsed into pairs, or the error
      text of the first value whose percent-decoding throws. */
  function ParseFragment(fragment: string, decode: string -> Result<string, string>): (r: Result<Params, string>)
    ensures fragment == "" ==> r == Success([])
    ensures r.Success? ==> forall k :: Get(r.value, k) == DecodedLast(ReadPieces(Text.Split(fragment, '&')), k, decode)
    ensures r.Failure? ==> exists i ::
      && FirstThrowAt(ReadPieces(Text.Split(fragment, '&')), decode, i)
      && r.error == decode(ReadPieces(Text.Split(fragment, '&'))[i].1).error
  {
    var kvs := ReadPieces(Text.Split(fragment, '&'));
    var r := ApplyFragmentPieces(kvs, decode);
    if r.Success? then
      FragmentLastWins(kvs, decode);
      r
    else
      FragmentFailsOnFirstThrow(kvs, decode);
      r
  }

  // ---------------------------------------------------------------------
  // Merging query into fragment
  // ---------------------------------------------------------------------

  /** The page's query fallback: query pairs in order, each `set` only when
      its name is not yet present. A name the fragment supplied keeps the
      fragment's value; among query duplicates the first one wins. */
  function MergeQuery(params: Params, query: Params): (r: Params)
    ensures forall k :: Get(r, k) == (if Has(params, k) then Get(params, k) else Get(query, k))
    decreases |query|
  {
    if |query| == 0 then params
    else
      var (k, v) := query[0];
      var next := if Has(params, k) then params else Set(params, k, v);
      var r := MergeQuery(next, query[1..]);
      assert forall j :: Get(query, j) == (if query[0].0 == j then Some(query[0].1) else Get(query[1..], j));
      r
  }
}

=== FILE: session.dfy ===
/** The identity provider's session service as the callback handlers see it:
    three entry points, each answering with a user, an error object, neither
    of the two, or a thrown exception. The service itself is not modelled;
    callers receive its answer as a function from call to reply. */
module Session {
  import opened Wrappers

  /** One call into the session service. */
  datatype Call =
    | ExchangeCode(code: string)
    | SetSession(accessToken: string, refreshToken: Option<string>)
    | VerifyOtp(tokenHash: string, otpType: string)

  /** An error object returned by the service: its `message` (empty when
      missing) and its `JSON.stringify` serialisation. */
  datatype ServiceError = ServiceError(message: string, serialised: string)

  /** The settled answer to one call. `Neither` is a reply carrying no error
      and no user; `Threw` is a rejected promise with its `String(e)` text. */
  datatype Reply =
    | User(id: string)
    | Failed(error: ServiceError)
    | Neither
    | Threw(text: string)

  /** `error.message || JSON.stringify(error)`. */
  function ErrorText(e: ServiceError): (t: string)
    ensures e.message != "" ==> t == e.message
    ensures e.message == "" ==> t == e.serialised
  {
    if e.message != "" then e.message else e.serialised
  }
}

=== FILE: text.dfy ===
/** String operations the application borrows from JavaScript: the `\s`
    character class (which `String.prototype.trim` also uses), splitting on a
    one-character separator, ASCII lower-casing, trimming and substring search. */
module Text {

  /** JavaScript's `\s`: the WhiteSpace and LineTerminator code points of
      ECMAScript (tab, line feed, vertical tab, form feed, carriage return,
      space, no-break space, the Unicode space separators, line and paragraph
      separators, and the byte-order mark). `trim()` removes exactly these. */
  predicate IsSpace(c: char) {
    || c == '\t' || c == '\n' || c == '\U{B}' || c == '\U{C}' || c == '\r'
    || c == ' ' || c == '\U{A0}' || c == '\U{1680}'
    || ('\U{2000}' <= c <= '\U{200A}')
    || c == '\U{2028}' || c == '\U{2029}' || c == '\U{202F}' || c == '\U{205F}'
    || c == '\U{3000}' || c == '\U{FEFF}'
  }

  predicate NoSpace(s: string) {
    forall i :: 0 <= i < |s| ==> !IsSpace(s[i])
  }

  predicate AllSpace(s: string) {
    forall i :: 0 <= i < |s| ==> IsSpace(s[i])
  }

  // ---------------------------------------------------------------------
  // Splitting on one character, as `String.prototype.split(sep)` does
  // ---------------------------------------------------------------------

  /** Position of the first occurrence of `c` in `s`. */
  function IndexOf(s: string, c: char): (i: nat)
    requires c in s
    ensures i < |s| && s[i] == c
    ensures c !in s[..i]
  {
    if s[0] == c then 0
    else
      assert c in s[1..] by { var k :| 0 <= k < |s| && s[k] == c; assert s[1..][k - 1] == c; }
      var j := IndexOf(s[1..], c);
      assert s[..j + 1] == [s[0]] + s[1..][..j];
      j + 1
  }

  /** The pieces between separators, joined back by `Join`. */
  function Join(parts: seq<string>, sep: char): string
    requires |parts| >= 1
    decreases |parts|
  {
    if |parts| == 1 then parts[0] else parts[0] + [sep] + Join(parts[1..], sep)
  }

  /** `s.split(sep)` for a one-character separator: the maximal
      separator-free pieces, in order, including empty ones; an input
      without the separator gives one piece, the whole input. */
  function Split(s: string, sep: char): (parts: seq<string>)
    ensures |parts| >= 1
    ensures forall i :: 0 <= i < |parts| ==> sep !in parts[i]
    ensures Join(parts, sep) == s
    ensures sep !in s ==> parts == [s]
    decreases |s|
  {
    if sep !in s then [s]
    else
      var i := IndexOf(s, sep);
      var rest := Split(s[i + 1..], sep);
      var parts := [s[..i]] + rest;
      assert parts[1..] == rest;
      assert s == s[..i] + [sep] + s[i + 1..];
      parts
  }

  /** Splitting undoes joining: `Split` and `Join` are inverse on lists of
      separator-free pieces. */
  lemma {:induction false} SplitJoin(parts: seq<string>, sep: char)
    requires |parts| >= 1
    requires forall i :: 0 <= i < |parts| ==> sep !in parts[i]
    ensures Split(Join(parts, sep), sep) == parts
    decreases |parts|
  {
    if |parts| > 1 {
      var s := Join(parts, sep);
      JoinFirstSeparator(parts, sep);
      SplitJoin(parts[1..], sep);
      assert Split(s, sep) == [parts[0]] + Split(Join(parts[1..], sep), sep);
      assert parts == [parts[0]] + parts[1..];
    }
  }

  /** Joining two lists of pieces one after the other puts one separator
      between their joins. */
  lemma {:induction false} JoinAppend(p: seq<string>, q: seq<string>, sep: char)
    requires |p| >= 1 && |q| >= 1
    ensures Join(p + q, sep) == Join(p, sep) + [sep] + Join(q, sep)
    decreases |p|
  {
    assert (p + q)[0] == p[0];
    if |p| > 1 {
      assert (p + q)[1..] == p[1..] + q;
      JoinAppend(p[1..], q, sep);
    } else {
      assert (p + q)[1..] == q;
    }
  }

  /** In a join of two or more pieces, the first separator ends the first
      piece and the text after it is the join of the rest. */
  lemma JoinFirstSeparator(parts: seq<string>, sep: char)
    requires |parts| >= 2 && sep !in parts[0]
    ensures sep in Join(parts, sep)
    ensures IndexOf(Join(parts, sep), sep) == |parts[0]|
    ensures Join(parts, sep)[..|parts[0]|] == parts[0]
    ensures Join(parts, sep)[|parts[0]| + 1..] == Join(parts[1..], sep)
  {
    var s := Join(parts, sep);
    var tail := Join(parts[1..], sep);
    assert s == parts[0] + [sep] + tail;
    assert sep in s by { assert s[|parts[0]|] == sep; }
    var i := IndexOf(s, sep);
    assert forall j :: 0 <= j < |parts[0]| ==> s[j] == parts[0][j];
    assert i >= |parts[0]|;
  }

  /** Text before the first `sep`, and between the first and the second
      (empty when there is no first `sep`): JavaScript's destructuring
      `const [k, v] = s.split(sep)` with `v || ""`. */
  function FirstTwo(s: string, sep: char): (kv: (string, string))
    ensures sep !in kv.0 && sep !in kv.1
    ensures sep !in s ==> kv == (s, "")
    ensures sep in s ==> |kv.0| + |kv.1| + 1 <= |s|
    ensures sep in s ==>
      && s[..|kv.0| + |kv.1| + 1] == kv.0 + [sep] + kv.1
      && (|kv.0| + |kv.1| + 1 == |s| || s[|kv.0| + |kv.1| + 1] == sep)
  {
    var parts := Split(s, sep);
    if |parts| == 1 then
      assert sep !in s by { assert Join(parts, sep) == parts[0]; }
      (parts[0], "")
    else
      var k := parts[0];
      var v := parts[1];
      assert s == k + [sep] + Join(parts[1..], sep);
      assert parts[1..][0] == v;
      JoinHead(parts[1..], sep);
      (k, v)
  }

  /** A joined list starts with its first piece, followed by the separator
      or by nothing at all. */
  lemma JoinHead(parts: seq<string>, sep: char)
    requires |parts| >= 1
    ensures |Join(parts, sep)| >= |parts[0]|
    ensures Join(parts, sep)[..|parts[0]|] == parts[0]
    ensures |Join(parts, sep)| == |parts[0]| || Join(parts, sep)[|parts[0]|] == sep
  {
  }

  // ---------------------------------------------------------------------
  // Lower-casing
  // ---------------------------------------------------------------------

  /** The lower case of one character: the ASCII capitals and U+212A KELVIN
      SIGN, the one non-ASCII character whose lower case is a single ASCII
      letter (`k`); every other character is kept. */
  function LowerChar(c: char): (d: char)
    ensures 'A' <= c <= 'Z' ==> d as int == c as int + 32
    ensures c == '\U{212A}' ==> d == 'k'
    ensures !('A' <= c <= 'Z') && c != '\U{212A}' ==> d == c
  {
    if 'A' <= c <= 'Z' then (c as int + 32) as char
    else if c == '\U{212A}' then 'k'
    else c
  }

  /** `toLowerCase()` restricted to the characters `LowerChar` maps. */
  function ToLower(s: string): (r: string)
    ensures |r| == |s|
    ensures forall i :: 0 <= i < |s| ==> r[i] == LowerChar(s[i])
  {
    seq(|s|, i requires 0 <= i < |s| => LowerChar(s[i]))
  }

  /** Lower-casing twice is lower-casing once, and it never turns a
      non-empty string into the empty one. */
  lemma ToLowerIdempotent(s: string)
    ensures ToLower(ToLower(s)) == ToLower(s)
    ensures ToLower(s) == "" <==> s == ""
  {
    assert forall i :: 0 <= i < |s| ==> ToLower(ToLower(s))[i] == ToLower(s)[i];
  }

  // ---------------------------------------------------------------------
  // Trimming
  // ---------------------------------------------------------------------

  function TrimStart(s: string): (r: string)
    ensures |r| <= |s| && r == s[|s| - |r|..]
    ensures AllSpace(s[..|s| - |r|])
    ensures r == "" || !IsSpace(r[0])
    decreases |s|
  {
    if |s| > 0 && IsSpace(s[0]) then
      var r := TrimStart(s[1..]);
      assert s[..|s| - |r|] == [s[0]] + s[1..][..|s| - 1 - |r|];
      r
    else s
  }

  function TrimEnd(s: string): (r: string)
    ensures |r| <= |s| && r == s[..|r|]
    ensures AllSpace(s[|r|..])
    ensures r == "" || !IsSpace(r[|r| - 1])
    decreases |s|
  {
    if |s| > 0 && IsSpace(s[|s| - 1]) then
      var r := TrimEnd(s[..|s| - 1]);
      assert s[|r|..] == s[..|s| - 1][|r|..] + [s[|s| - 1]];
      r
    else s
  }

  /** `trim()`: the input without its leading and trailing whitespace. */
  function Trim(s: string): (r: string)
    ensures |r| <= |s|
    ensures exists i :: 0 <= i <= |s| - |r| && r == s[i..i + |r|] && AllSpace(s[..i]) && AllSpace(s[i + |r|..])
    ensures r == "" || (!IsSpace(r[0]) && !IsSpace(r[|r| - 1]))
  {
    var t := TrimStart(s);
    var r := TrimEnd(t);
    var i := |s| - |t|;
    assert s[i..] == t;
    assert s[i..i + |r|] == r;
    assert s[i + |r|..] == t[|r|..];
    r
  }

  /** Trimming leaves nothing exactly when the input is all whitespace
      (the empty string included). */
  lemma TrimEmptyIff(s: string)
    ensures Trim(s) == "" <==> AllSpace(s)
  {
    var t := TrimStart(s);
    var k := |s| - |t|;
    assert s[..|s|] == s;
    assert |t| == 0 || t[0] == s[k];
    assert t[0..] == t;
  }

  // ---------------------------------------------------------------------
  // Substring search
  // ---------------------------------------------------------------------

  /** `needle` occurs in `hay` starting at position `i`. */
  predicate OccursAt(hay: string, needle: string, i: int) {
    0 <= i && i + |needle| <= |hay| && hay[i..i + |needle|] == needle
  }

  /** `hay.includes(needle)`, searched from position `from` onwards. */
  function IncludesFrom(hay: string, needle: string, from: nat): (b: bool)
    requires from <= |hay|
    ensures b <==> exists i :: from <= i && OccursAt(hay, needle, i)
    decreases |hay| - from
  {
    if from + |needle| > |hay| then false
    else if hay[from..from + |needle|] == needle then
      assert OccursAt(hay, needle, from);
      true
    else
      var b := IncludesFrom(hay, needle, from + 1);
      assert b <== exists i :: from <= i && OccursAt(hay, needle, i) by {
        if exists i :: from <= i && OccursAt(hay, needle, i) {
          var i :| from <= i && OccursAt(hay, needle, i);
          assert i != from;
        }
      }
      b
  }

  /** `hay.includes(needle)`. */
  function Includes(hay: string, needle: string): (b: bool)
    ensures b <==> exists i :: OccursAt(hay, needle, i)
  {
    IncludesFrom(hay, needle, 0)
  }
}

=== FILE: wizard.dfy ===
/** The top-level wizard of the application (`app/page.tsx`): one state
    record, the transitions its child components trigger, and which
    components and header buttons are rendered for a given state. */
module Wizard {
  import opened Wrappers

  /** What the forms hand to the wizard about the signed-up or signed-in user. */
  datatype UserData = UserData(username: string, email: string, password: string, gender: string, age: int)

  /** The page's state record. Steps: 1 sign-up or sign-in, 2 verification,
      3 token creation, 4 scanning. */
  datatype AppState = AppState(
    step: int,
    userData: Option<UserData>,
    token: Option<string>,
    points: int,
    isLogin: bool,
    showPayment: bool,
    showDashboard: bool)

  const StartingPoints: int := 1000
  const TestingStep: int := 4

  /** The state on first render. */
  const Initial: AppState := AppState(1, None, None, StartingPoints, false, false, false)

  /** The callbacks the page hands to its children. */
  datatype Action =
    | NextStep
    | SetUserData(user: UserData)
    | SetToken(token: string)
    | UpdatePoints(newPoints: int)
    | ToggleLoginMode
    | ShowPaymentForm
    | HidePaymentForm
    | PaymentComplete(pointsPurchased: int)
    | ShowDashboard
    | HideDashboard
    | SkipToTesting

  /** The state after one callback; each callback copies the previous state
      and overrides the fields it names. */
  function Apply(s: AppState, a: Action): (r: AppState)
    // only the step callbacks move the step
    ensures r.step != s.step ==> a.NextStep? || a.SkipToTesting?
    // only the points callbacks change the balance
    ensures r.points != s.points ==> a.UpdatePoints? || a.PaymentComplete?
    // only the two mode and flag callbacks touch the flags they are named after
    ensures r.isLogin != s.isLogin ==> a.ToggleLoginMode?
    ensures r.showPayment != s.showPayment ==> a.ShowPaymentForm? || a.HidePaymentForm? || a.PaymentComplete?
    ensures r.showDashboard != s.showDashboard ==> a.ShowDashboard? || a.HideDashboard?
    ensures r.userData != s.userData ==> a.SetUserData?
    ensures r.token != s.token ==> a.SetToken?
    // what the record, flag and token callbacks set
    ensures a.SetUserData? ==> r.userData == Some(a.user)
    ensures a.SetToken? ==> r.token == Some(a.token)
    ensures a.ShowPaymentForm? ==> r.showPayment
    ensures a.HidePaymentForm? ==> !r.showPayment
    ensures a.ShowDashboard? ==> r.showDashboard
    ensures a.HideDashboard? ==> !r.showDashboard
  {
    match a
    case NextStep => s.(step := s.step + 1)
    case SetUserData(u) => s.(userData := Some(u))
    case SetToken(t) => s.(token := Some(t))
    case UpdatePoints(n) => s.(points := n)
    case ToggleLoginMode => s.(isLogin := !s.isLogin)
    case ShowPaymentForm => s.(showPayment := true)
    case HidePaymentForm => s.(showPayment := false)
    case PaymentComplete(n) => s.(points := s.points + n, showPayment := false)
    case ShowDashboard => s.(showDashboard := true)
    case HideDashboard => s.(showDashboard := false)
    case SkipToTesting => s.(step := TestingStep)
  }

  /** The state after a sequence of callbacks, in order. */
  function ApplyAll(s: AppState, actions: seq<Action>): AppState
    decreases |actions|
  {
    if |actions| == 0 then s else ApplyAll(Apply(s, actions[0]), actions[1..])
  }

  /** Toggling the login mode twice restores the state. */
  lemma ToggleLoginModeInvolution(s: AppState)
    ensures Apply(Apply(s, ToggleLoginMode), ToggleLoginMode) == s
    ensures Apply(s, ToggleLoginMode).isLogin == !s.isLogin
  {
  }

  /** `nextStep` adds exactly one to the step and changes nothing else:
      undoing the step restores the state. */
  lemma NextStepOnlyAdvances(s: AppState)
    ensures Apply(s, NextStep).step == s.step + 1
    ensures Apply(s, NextStep).(step := s.step) == s
  {
  }

  /** A completed payment is the same as hiding the payment form and then
      setting the balance to the old balance plus the purchase. */
  lemma PaymentCompleteDecomposes(s: AppState, n: int)
    ensures Apply(s, PaymentComplete(n)) == Apply(Apply(s, HidePaymentForm), UpdatePoints(s.points + n))
    ensures Apply(s, PaymentComplete(n)).points == s.points + n
  {
  }

  /** `updatePoints` sets the balance to exactly the value given, whatever
      it was, and `skipToTesting` lands on the scanning step from any step. */
  lemma UpdatePointsAndSkip(s: AppState, n: int)
    ensures Apply(s, UpdatePoints(n)).points == n
    ensures Apply(Apply(s, UpdatePoints(n)), UpdatePoints(n)) == Apply(s, UpdatePoints(n))
    ensures Apply(s, SkipToTesting).step == TestingStep
  {
  }

  /** The sign-up path through the wizard (three `nextStep` calls from step
      1) and the sign-in shortcut (`skipToTesting`) both reach the scanning
      step with the balance untouched. */
  lemma {:induction false} BothPathsReachTesting(s: AppState)
    requires s.step == 1
    ensures ApplyAll(s, [NextStep, NextStep, NextStep]).step == TestingStep
    ensures ApplyAll(s, [SkipToTesting]).step == TestingStep
    ensures ApplyAll(s, [NextStep, NextStep, NextStep]).points == s.points
  {
    var s1 := Apply(s, NextStep);
    var s2 := Apply(s1, NextStep);
    var s3 := Apply(s2, NextStep);
    assert [NextStep, NextStep, NextStep][1..] == [NextStep, NextStep];
    assert [NextStep, NextStep][1..] == [NextStep];
    assert ApplyAll(s, [NextStep, NextStep, NextStep]) == ApplyAll(s1, [NextStep, NextStep]);
    assert ApplyAll(s1, [NextStep, NextStep]) == ApplyAll(s2, [NextStep]);
    assert ApplyAll(s2, [NextStep]) == ApplyAll(s3, []);
    assert ApplyAll(s, [SkipToTesting]) == ApplyAll(Apply(s, SkipToTesting), []);
  }

  /** The balance after a run of callbacks none of which is a points
      callback is the balance before it. */
  lemma {:induction false} PointsOnlyMovedByPointCallbacks(s: AppState, actions: seq<Action>)
    requires forall i :: 0 <= i < |actions| ==> !actions[i].UpdatePoints? && !actions[i].PaymentComplete?
    ensures ApplyAll(s, actions).points == s.points
    decreases |actions|
  {
    if |actions| > 0 {
      PointsOnlyMovedByPointCallbacks(Apply(s, actions[0]), actions[1..]);
    }
  }

  // ---------------------------------------------------------------------
  // Rendering
  // ---------------------------------------------------------------------

  /** The components the page body may render. */
  datatype View = PaymentView | DashboardView | RegistrationView | LoginView | VerificationView | TokenCreationView | TestingView

  /** The header buttons. */
  datatype Button = DashboardButton | BackToScannerButton

  /** The step component rendered for a state while the dashboard is hidden. */
  function StepView(s: AppState): Option<View> {
    if s.step == 1 && !s.isLogin then Some(RegistrationView)
    else if s.step == 1 && s.isLogin then Some(LoginView)
    else if s.step == 2 then Some(VerificationView)
    else if s.step == 3 then Some(TokenCreationView)
    else if s.step == TestingStep then Some(TestingView)
    else None
  }

  /** Every component the page body renders for a state. */
  function Views(s: AppState): (vs: set<View>)
    ensures DashboardView in vs <==> s.showDashboard && s.step == TestingStep
    ensures PaymentView in vs <==> s.showPayment
    // with the dashboard shown no step component renders; otherwise at most one does
    ensures s.showDashboard ==> vs * StepViews == {}
    ensures !s.showDashboard ==> forall v, w :: v in vs * StepViews && w in vs * StepViews ==> v == w
    // at step 1 the form is the registration form exactly when not in login mode
    ensures !s.showDashboard && s.step == 1 ==> (RegistrationView in vs <==> !s.isLogin) && (LoginView in vs <==> s.isLogin)
  {
    (if s.showPayment then {PaymentView} else {})
    + (if s.showDashboard && s.step == TestingStep then {DashboardView} else {})
    + (if !s.showDashboard && StepView(s).Some? then {StepView(s).value} else {})
  }

  const StepViews: set<View> := {RegistrationView, LoginView, VerificationView, TokenCreationView, TestingView}

  /** The header buttons rendered for a state. */
  function Buttons(s: AppState): (bs: set<Button>)
    ensures DashboardButton in bs <==> s.step == TestingStep && !s.showDashboard
    ensures BackToScannerButton in bs <==> s.showDashboard
  {
    (if s.step == TestingStep && !s.showDashboard then {DashboardButton} else {})
    + (if s.showDashboard then {BackToScannerButton} else {})
  }

  /** The two header buttons are never shown together, and at the scanning
      step exactly one of them is; pressing it shows the other. */
  lemma HeaderButtonsAlternate(s: AppState)
    ensures !(DashboardButton in Buttons(s) && BackToScannerButton in Buttons(s))
    ensures s.step == TestingStep ==> (DashboardButton in Buttons(s) <==> BackToScannerButton !in Buttons(s))
    ensures DashboardButton in Buttons(s) ==> BackToScannerButton in Buttons(Apply(s, ShowDashboard))
    ensures BackToScannerButton in Buttons(s) && s.step == TestingStep ==> DashboardButton in Buttons(Apply(s, HideDashboard))
  {
  }

  /** Toggling the login mode at step 1 swaps the registration form for the
      login form and back. */
  lemma ToggleSwapsForms(s: AppState)
    requires s.step == 1 && !s.showDashboard
    ensures RegistrationView in Views(s) <==> LoginView in Views(Apply(s, ToggleLoginMode))
    ensures LoginView in Views(s) <==> RegistrationView in Views(Apply(s, ToggleLoginMode))
  {
  }

  /** The first screen is the registration form with nothing else. */
  lemma InitialScreen()
    ensures Views(Initial) == {RegistrationView}
    ensures Buttons(Initial) == {}
  {
  }
}

=== FILE: wrappers.dfy ===
/** Failure-compatible wrappers shared by the whole model: an optional value
    (JavaScript's `null`/`undefined` versus a present value) and a result that
    is either a value or an error (a thrown exception's text, a service error). */
module Wrappers {

  datatype Option<+T> = None | Some(value: T) {

    /** The value if present, else the given default (JavaScript's `??`). */
    function GetOr(default: T): T {
      match this
      case Some(v) => v
      case None => default
    }
  }

  datatype Result<+R, +E> = Success(value: R) | Failure(error: E)

  /** JavaScript truthiness of an optional string: present and non-empty. */
  predicate Truthy(o: Option<string>) {
    o.Some? && o.value != ""
  }

  /** JavaScript's `a || b` on optional strings: `a` when it is truthy, else `b`. */
  function OrElse(a: Option<string>, b: Option<string>): (r: Option<string>)
    ensures Truthy(a) ==> r == a
    ensures !Truthy(a) ==> r == b
    ensures Truthy(r) <==> Truthy(a) || Truthy(b)
  {
    if Truthy(a) then a else b
  }

  /** JavaScript's `s || fallback` on an optional string with a string default. */
  function TruthyOr(a: Option<string>, fallback: string): (r: string)
    ensures Truthy(a) ==> r == a.value
    ensures !Truthy(a) ==> r == fallback
  {
    if Truthy(a) then a.value else fallback
  }
}
